=== FILE: README.md ===
# YakuNote core, modelled in Dafny

YakuNote is a Next.js application that summarizes and translates text with
OpenAI's chat-completion API and keeps the summaries a signed-in user saves
in a Supabase table. This project models its server routes, its list pages
and its sign-in flow as pure Dafny functions, and proves what they answer
for every input.

- **Summarizing.** `POST /api/summarize` cuts the text to 4000 characters,
  asks a primary model and falls back to a second one. `/api/summarize_english`
  goes through the OpenAI client and reads only `OPENAI_API_KEY`.
  `/api/summarize/direct` makes a single raw `fetch`.
- **Translating.** `POST /api/translate` tries a raw `fetch` first and the
  client second.
- **Credentials.** Most routes look for the OpenAI key under four variable
  names. `GET /api/summarize/env-test` reports which name matched.
- **Saving.** `POST /api/save` validates the request and inserts one row.
- **List pages.** `/summaries` and `/saved` fetch a page of saved summaries,
  shorten what they display and page with offset controls.
- **Sign-in flow.**
  - `AuthRedirect` guards pages by session state.
  - `/api/auth/callback` exchanges an OAuth code for a session.
  - The login and sign-up pages turn `error` query parameters into messages.
  - `/api/auth/login` and `/api/auth/signup` hand credentials to the provider.

The model never calls an outside service:

- The outcome of every OpenAI or Supabase call is a parameter: completed,
  a non-ok HTTP response, a rejected promise, or a thrown value.
- The OpenAI routes return the completion calls they made, in order. The
  auth routes and the list pages return the one request they issued, if
  any. The callback returns whether it attempted the code exchange. The
  save route returns the table as it is afterwards.
- `process.env` is a sequence of name/value pairs, looked up first match first.
- A request body is either unparsable, carrying the parser's message, or a
  map of its string-valued members.

JavaScript semantics are written out in `js_string.dfy`:

- truthiness;
- `substring`, which clamps its bounds and swaps them when reversed;
- `startsWith` and `includes`;
- decimal printing of a number.

`uri_component.dfy` holds `encodeURIComponent` and a decoder.

Modules: `Wrappers`, `JsString`, `Environment`, `Http`, `Upstream`,
`Credentials`, `Summarize`, `SummarizeEnglish`, `SummarizeDirect`,
`Translate`, `Save`, `ListPage`, `UriComponent`, `AuthRedirect`,
`AuthMessages`, `AuthCallback`, `AuthRoutes`.

Several helpers are duplicated across the source files. Each is defined once
here, and every copy's lines are cited through the members that use it:

- `getOpenAIApiKey`: in the summarize, translate and env-test routes.
- `truncateUrl` and `truncateSummary`: on both list pages.
- The error-message mapping: on the login and sign-up pages.

## Model

| member | source | states |
|---|---|---|
| Environment.Get | src/app/api/summarize/route.ts:41 | a variable is found exactly when some entry carries that name, and the value returned is one the environment holds under it |
| Http.BodyField | src/app/api/summarize/route.ts:96 | a member read from an unparsable body is absent; from a parsed body it is present exactly when the object has it, with its value |
| Http.ErrorMessageOr | src/app/api/auth/login/route.ts:52 | an Error's message is used; anything else thrown gives the fallback text |
| JsString.Substring | src/app/api/summarize/env-test/route.ts:95 | `substring` never lengthens its string; in-range bounds give the slice, reversed bounds give the slice between them, and bounds past both ends give the whole string |
| JsString.ClipWithSuffix | src/app/api/summarize/route.ts:114-119 | a string within the cap is kept; a longer one becomes its first `max` characters followed by the suffix |
| JsString.DecimalRoundTrip | src/app/api/summarize/route.ts:171-173 | a status printed into a message in decimal reads back as the same number |
| Upstream.FetchErrorMessage | src/app/api/summarize/route.ts:164-174 | a non-ok response is reported as `OpenAI API error: ` followed by its status, and a rejected fetch keeps its own message |
| Upstream.FetchErrorMessageCarriesStatus | src/app/api/summarize/direct/route.ts:81-89 | the digits right after the prefix are the status code's decimal digits, followed by a space |
| Upstream.HttpFailureIsNotKeyNotSet | src/app/api/summarize/route.ts:266-269 | a non-ok response never produces the exact missing-key message that the catch clause singles out |
| Upstream.FetchErrorMessageIdentifiesFailure | src/app/api/summarize/route.ts:171-173 | two non-ok responses reported with the same message had the same status and the same status text |
| Credentials.FirstSet | src/app/api/summarize/env-test/route.ts:27-55 | the lookup returns a name from the list holding a non-empty value, every earlier name being unset or empty; it returns nothing exactly when all names are unset or empty |
| Credentials.ApiKey | src/app/api/summarize/route.ts:31-48 | a key found is never empty |
| Credentials.ApiKeyCascade | src/app/api/translate/route.ts:31-48 | the lookup equals the explicit cascade OPENAI_API_KEY, NEXT_PUBLIC_OPENAI_API_KEY, OPENAI_KEY, NEXT_PUBLIC_OPENAI_KEY |
| Credentials.FindApiKeyAgreesWithApiKey | src/app/api/summarize/env-test/route.ts:27-55 | env-test reports a key exactly when the other routes would find one, naming a recognised, set variable that holds that same value |
| Credentials.VisibleNames | src/app/api/summarize/env-test/route.ts:69-70 | the filter keeps exactly those listed names that contain none of SECRET, KEY and TOKEN |
| Credentials.VisibleNamesKeepsOrder | src/app/api/summarize/env-test/route.ts:69-70 | the filter goes name by name: a single name is kept exactly when it is not sensitive, and filtering a concatenation filters each part, so order and repetitions are kept |
| Credentials.FirstListed | src/app/api/summarize/env-test/route.ts:71 | at most ten names are shown: all of them when there are ten or fewer, otherwise the first ten |
| Credentials.KeyPreview | src/app/api/summarize/env-test/route.ts:95 | the preview is the first four and last four characters around `...`; a key shorter than four characters appears whole on both sides |
| Credentials.EnvTest | src/app/api/summarize/env-test/route.ts:57-104 | the status is always 200; with no key it lists the first ten visible variable names (all of them when fewer), in environment order; otherwise it reports the matching name, length, format check and preview |
| Credentials.ValidKeyPreview | src/app/api/summarize/env-test/route.ts:86-95 | a key that passes the format check always previews as `sk-`, its fourth character, `...` and its last four characters (11 characters in all) |
| Summarize.TruncateForModel | src/app/api/summarize/route.ts:114-119 | the text sent is the input when that fits in 4000 characters, and otherwise its first 4000 characters plus the marker, so it is bounded |
| Upstream.WithNote | src/app/api/summarize/route.ts:238-244 | the note is appended exactly when the input was longer than 4000 characters; both summarize routes use it, each with its own note |
| Summarize.ErrorDetail | src/app/api/summarize/route.ts:266-269 | the missing-key detail is given if and only if the message is the missing-key message; any other message is prefixed |
| Summarize.Post | src/app/api/summarize/route.ts:72-283 | the only 400s are a parse failure or missing text, and neither calls anything; the model is called exactly when there is text and a key is found, and a missing key gives a 500 with no call; the primary model is called first and the fallback only when the primary fails, both with the cut text; the answer is 200 exactly when one of them completes; a double failure reports the fallback's error |
| Summarize.UpstreamFailureIsNotKeyMissing | src/app/api/summarize/route.ts:214-269 | when both models fail and the fallback got a non-ok response, the 500 detail is the generic error with the status, never the missing-key detail |
| SummarizeEnglish.TruncateForModel | src/app/api/summarize_english/route.ts:68-71 | the input is kept when it fits in 4000 characters, and otherwise cut with the English marker |
| SummarizeEnglish.ErrorDetail | src/app/api/summarize_english/route.ts:119-121 | the missing-key explanation is given if and only if the message is the missing-key message |
| SummarizeEnglish.Post | src/app/api/summarize_english/route.ts:48-135 | an unparsable body ends in the 500 catch-all, not a 400; the only 400 is missing text; exactly one client call is made when text and OPENAI_API_KEY are present; the answer is 200 exactly when that call answers |
| SummarizeEnglish.OnlyPrimaryKeyName | src/app/api/summarize_english/route.ts:30-36 | a key set only under NEXT_PUBLIC_OPENAI_API_KEY makes the English route answer "key not set" with no call, while the Japanese route goes on to call the model |
| SummarizeDirect.Post | src/app/api/summarize/direct/route.ts:96-191 | validation runs in the order parse, text, key, all before any call; a single fetch sends the cut text with the short prompt; its content is returned without a note; a failure is reported with the summarizing prefix |
| SummarizeDirect.UpstreamStatusReported | src/app/api/summarize/direct/route.ts:81-89 | a non-ok response is reported as the summarizing prefix, `OpenAI API error: `, the status and the status text |
| SummarizeDirect.DirectCallIsSummarizeFallback | src/app/api/summarize/direct/route.ts:48-79 | the direct route's one request is exactly the main route's fallback request, and for text within the cap both give the same answer when it completes |
| Translate.SystemPrompt | src/app/api/translate/route.ts:168-170 | the Japanese prompt is chosen if and only if the target is "ja" |
| Translate.Post | src/app/api/translate/route.ts:110-228 | the 400s cover parsing, missing text and a language other than ja or en, with no call; the model is called exactly when the request is valid and a key is found, and a missing key gives a 500 with no call; every call sends the text uncut with the target's prompt; the client is tried exactly when the fetch attempt did not complete; the answer is 200 exactly when one attempt succeeds |
| Translate.SameKeyLookupAsSummarize | src/app/api/translate/route.ts:71-73 | for a request both routes accept, translate calls the model exactly when summarize does; on long text translate sends it whole while summarize sends the cut version |
| Save.StoredUrl | src/app/api/save/route.ts:41 | a url is stored as null exactly when it is absent or empty, and is otherwise stored unchanged |
| Save.NewRecord | src/app/api/save/route.ts:37-42 | the inserted row carries the request's text, summary and user, all non-empty, with the id and time the database chose |
| Save.Post | src/app/api/save/route.ts:21-60 | missing fields give a 400 before the Supabase credentials are checked; missing credentials give a 500; a database error gives the save-failed 500 with its message, and a throw from the client gives the catch-all 500 with `e.message`; the table grows by exactly the new row if and only if the answer is 200, and is unchanged otherwise |
| Save.SaveThenFind | src/app/api/save/route.ts:37-42 | after a successful save, the row with the new id holds the request's text, summary, user and normalised url |
| ListPage.TruncateUrl | src/app/summaries/page.tsx:145-148 | a missing or empty url shows "URL なし"; a url of up to 50 characters shows whole; a longer one shows its first 50 characters and `...` |
| ListPage.TruncateSummary | src/app/saved/page.tsx:152-156 | a summary of up to 100 characters shows whole; a longer one shows its first 100 characters and `...` |
| ListPage.DisplayedTextBounded | src/app/summaries/page.tsx:144-155 | displayed text never exceeds its cap plus the ellipsis, and always begins with the text it stands for |
| ListPage.PreviousSkip | src/app/summaries/page.tsx:285-288 | "previous" never targets a negative offset, and goes back one full page when there is room |
| ListPage.Label | src/app/summaries/page.tsx:294-300 | the label starts at skip+1 and ends at the smaller of skip+limit and total |
| ListPage.PreviousUndoesNext | src/app/saved/page.tsx:281-303 | "next" followed by "previous" returns to the same offset |
| ListPage.PreviousMovesBack | src/app/saved/page.tsx:281-284 | "previous" is disabled exactly on the first page, and otherwise moves strictly back without going below zero |
| ListPage.NextContinuesLabel | src/app/summaries/page.tsx:294-307 | when "next" is enabled, the next page starts inside the list and its label begins right after the current label's end |
| ListPage.LabelWithinTotal | src/app/saved/page.tsx:290-296 | on a page that starts inside the list, the label is a non-empty range within 1..total of at most `limit` entries |
| ListPage.WalkPages | src/app/summaries/page.tsx:303-307 | pressing "next" from the first page until it is disabled visits offsets 0, limit, 2·limit, …; each visited page lies inside the list, and the last label ends at total |
| ListPage.CaughtMessage | src/app/saved/page.tsx:101-115 | a non-ok answer shows its detail or the fixed failure text; a thrown Error shows its message; for any other thrown value /saved shows the fixed unknown-error text |
| ListPage.FetchSummaries | src/app/summaries/page.tsx:90-118 | without a user nothing is requested and the list is kept; otherwise the user's page is requested with the given offset and size; a listing replaces the items and pagination; a failure changes only the error, to `エラー: ` followed by the caught message, and clears loading |
| ListPage.ChangePage | src/app/saved/page.tsx:129-131 | a page change requests the new offset with the current page size |
| ListPage.PagerOnlyWithSecondPage | src/app/summaries/page.tsx:282 | on the first page the controls are shown exactly when "next" is enabled; when hidden, both buttons would be disabled |
| ListPage.InitialPaginationStartsAtFirstPage | src/app/summaries/page.tsx:31-35 | the initial pagination is well formed and shows no controls, and the first fetch with its default arguments asks for the same page as a page change to offset 0 |
| ListPage.FetchIsIdempotent | src/app/saved/page.tsx:85-119 | fetching again with the same answer leaves the page state as it was after the first fetch |
| ListPage.NextThenPrevious | src/app/summaries/page.tsx:128-130 | after a page is listed, "next" requests the following page with the same size, and "previous" from there requests the page listed |
| UriComponent.Encode | src/app/api/auth/callback/route.ts:69-70 | the encoding uses only unreserved characters, `%` and upper-case hex digits, and never shortens the text |
| UriComponent.EncodedIsOneQueryValue | src/app/api/auth/callback/route.ts:69-70 | an encoded message contains none of `& = # + ?` or space, so it stays one query value |
| UriComponent.Decode | src/app/login/page.tsx:15 | reading one query value never lengthens it, and text without `%` escapes reads back as itself with each `+` as a space |
| UriComponent.DecodeEncode | src/app/api/auth/callback/route.ts:65-71 | decoding an encoded message gives back exactly that message |
| AuthRedirect.CheckAuth | src/components/AuthRedirect.tsx:17-28 | the guard navigates if and only if the page's requirement differs from whether a session exists, and then always to `redirectTo` |
| AuthRedirect.GuardsAreComplementary | src/app/signup/page.tsx:37 | for any session state, exactly one of the two kinds of page (session required, session refused) lets the visitor stay |
| AuthMessages.ErrorMessage | src/app/login/page.tsx:13-32 | a message is shown exactly when `error` is non-empty: the three known codes get fixed texts, the callback error adding its description; any other code is repeated with its description if one is given |
| AuthMessages.UnknownCodesAreShown | src/app/signup/page.tsx:27-29 | an unknown code appears verbatim after the prefix, and the rest is `- ` and the description, or nothing |
| AuthMessages.FixedMessagesIgnoreDescription | src/app/signup/page.tsx:21-26 | the access-denied and missing-code messages do not depend on the description |
| AuthCallback.ThrownMessage | src/app/api/auth/callback/route.ts:67 | a thrown Error contributes its message; anything else contributes the fixed unknown-error text |
| AuthCallback.Get | src/app/api/auth/callback/route.ts:19-72 | every request redirects to /summary or /login?error=…; a provider error is passed on untouched; the code is exchanged if and only if there is a code and no error; an exchange lands on /summary exactly when it succeeds; a failure or a throw is reported in the query |
| AuthCallback.ThrownMessageReachesLoginPage | src/app/api/auth/callback/route.ts:65-71 | a thrown Error's message is sent as a single `error` value, which the login page decodes back to exactly that message and shows as an unknown code |
| AuthRoutes.Validate | src/app/api/auth/signup/route.ts:9-25 | the provider is reached exactly when the body parses with a non-empty email and password; otherwise the two 400 answers apply |
| AuthRoutes.ConfirmationLink | src/app/api/auth/signup/route.ts:36 | the confirmation link is the request's Origin followed by the callback path; an absent Origin becomes the text "null" |
| AuthRoutes.SignUpCaughtMessage | src/app/api/auth/signup/route.ts:64-72 | the reported text, in order of preference: an Error's message, a thrown string, an object's string message, the fixed text |
| AuthRoutes.SignUp | src/app/api/auth/signup/route.ts:6-78 | the provider gets exactly the body's credentials and the confirmation link; a refusal or a missing user gives 400; a user with an empty identity list gets the confirm-e-mail answer; any other user gets the data; a throw gives 500 |
| AuthRoutes.LogIn | src/app/api/auth/login/route.ts:6-57 | the provider gets exactly the body's credentials; its data is relayed with 200, a refusal gives 400 with its message, and a throw gives 500 |
| AuthRoutes.SignUpAndLogInAgree | src/app/api/auth/login/route.ts:11-45 | both routes reject the same bodies with the same answers, send the same credentials, and report refusals and thrown Errors identically |
| AuthRoutes.StatusClassifiesOutcome | src/app/api/auth/signup/route.ts:40-76 | a sign-in is 200 exactly when the provider answers, and a sign-up exactly when it answers with a user; 500 means something was thrown; every other answer is an `{ error }` 400 |

## Left out

- **Network calls.**
  - Timeouts, retries and the cached OpenAI and Supabase client objects are
    not modelled.
  - The environment is fixed for the life of the process, so caching never
    changes an outcome.
  - Only the result of each call is modelled, as a parameter.
- **Response details.**
  - CORS headers and the `OPTIONS` handlers are not modelled.
  - `console` logging is not modelled.
  - The request parameters `max_tokens` and `temperature` are not modelled.
  - Each redirect is modelled as the path and query string. Resolving it
    against the request URL, and the URL parser's own escaping, are not
    modelled.
- **Request bodies.** Only string-valued members are modelled.
  - A number, boolean, array or object in `text`, `email` and similar
    fields is left out. So is a JSON body that is `null` or not an object.
  - In those cases the source throws a `TypeError` or treats the value by
    JavaScript truthiness.
- **Model answers.** An answer whose `message.content` is `null` or missing
  is not modelled. The completed content is always a string.
- **Sign-in flow internals.**
  - Reading the session and the user from Supabase is not modelled. The list
    pages take the user as part of their state.
  - `/summaries` currently always installs a fixed test user. That code is
    outside the model.
  - The throws that can come from `cookies()` and client creation are folded
    into the provider's outcome. They occur before the provider is reached
    and end in the same catch clause.
- **List-page rendering.** `formatDate`, the markup, and the `/saved`
  page's separate `getUser` effect are not modelled. The pagination numbers
  are integers, although JavaScript numbers are floating point.
- **Other files.** Routes and pages outside the core are not part of this
  model: extract, the summarize test routes, the home, summarize and summary
  pages, `AuthForm`, and the middleware.
- JsString: a Dafny `char` is a Unicode scalar value standing for one UTF-16
  code unit. Lengths and cut points on text outside the Basic Multilingual
  Plane therefore count code points, not code units.
- UriComponent.Encode: lone surrogates cannot occur in a Dafny string. So
  the `URIError` that `encodeURIComponent` throws for them is not modelled.
- UriComponent.Decode: a malformed `%` escape, or escaped bytes that are not
  UTF-8, give `None`, while the browser's query parser keeps the bad escape
  as literal text and puts U+FFFD for the bad bytes. Encode never produces
  such input, so the round trip and the login page message are unaffected.
- Environment: a sequence of variables may hold the same name twice, which
  `process.env` never does. Lookups take the first entry, and the env-test
  listing would show such a name twice.
- ListPage.CaughtMessage: on `/summaries`, for thrown values that are not
  Errors the model shows an object's string `message`, or "undefined". It
  does not model a thrown `null` or `undefined` (reading `.message` would
  throw again) or a non-string `message`. None of these can be thrown in that
  `try` block.

=== FILE: auth_callback.dfy ===
/**
 * GET /api/auth/callback, the OAuth redirect target: a provider error goes
 * back to the login page, a missing code to the summary page, and a code
 * is exchanged for a session. Every request ends in exactly one redirect.
 */
module AuthCallback {
  import opened Wrappers
  import opened JsString
  import opened Http
  import UriComponent
  import AuthMessages

  /** The query parameters read from the request URL (`searchParams.get`). */
  datatype CallbackParams = CallbackParams(
    code: Option<string>,
    error: Option<string>,
    errorDescription: Option<string>)

  /** What the session exchange comes to, including anything thrown while attempting it. */
  datatype ExchangeResult = Exchanged | ExchangeFailed(message: string) | ExchangeThrew(thrown: Thrown)

  /** The redirect sent (as the path and query resolved against the request URL), and whether a code exchange was attempted. */
  datatype Redirect = Redirect(location: string, exchangeAttempted: bool)

  const LoginErrorPrefix: string := "/login?error="
  const SummaryPath: string := "/summary"
  const ExchangeFailurePrefix: string := LoginErrorPrefix + "auth_callback_error&error_description="
  const UnknownError: string := "不明なエラーが発生しました"

  /** The message placed in the `error` parameter when something was thrown. */
  function ThrownMessage(t: Thrown): (m: string)
    ensures t.ErrorValue? ==> m == t.message
    ensures !t.ErrorValue? ==> m == UnknownError
  {
    ErrorMessageOr(t, UnknownError)
  }

  function Get(p: CallbackParams, exchange: ExchangeResult): (r: Redirect)
    // every request is redirected to the login page or the summary page
    ensures r.location == SummaryPath || StartsWith(r.location, LoginErrorPrefix)
    // a provider error is passed on without looking at the code
    ensures Truthy(p.error) ==>
              r == Redirect(LoginErrorPrefix + p.error.value + "&error_description="
                            + (if Truthy(p.errorDescription) then p.errorDescription.value else ""), false)
    ensures !Truthy(p.error) && !Truthy(p.code) ==> r == Redirect(SummaryPath, false)
    // the exchange is attempted exactly when there is a code and no error
    ensures r.exchangeAttempted <==> !Truthy(p.error) && Truthy(p.code)
    ensures r.exchangeAttempted ==>
              (r.location == SummaryPath <==> exchange.Exchanged?)
    ensures r.exchangeAttempted && exchange.ExchangeFailed? ==>
              r.location == ExchangeFailurePrefix + exchange.message
    ensures r.exchangeAttempted && exchange.ExchangeThrew? ==>
              r.location == LoginErrorPrefix + UriComponent.Encode(ThrownMessage(exchange.thrown))
  {
    if Truthy(p.error) then
      var description := if Truthy(p.errorDescription) then p.errorDescription.value else "";
      var location := LoginErrorPrefix + p.error.value + "&error_description=" + description;
      assert location[..|LoginErrorPrefix|] == LoginErrorPrefix;
      Redirect(location, false)
    else if !Truthy(p.code) then Redirect(SummaryPath, false)
    else
      match exchange
      case Exchanged => Redirect(SummaryPath, true)
      case ExchangeFailed(m) =>
        var location := ExchangeFailurePrefix + m;
        assert location == LoginErrorPrefix + ("auth_callback_error&error_description=" + m);
        assert location[..|LoginErrorPrefix|] == LoginErrorPrefix;
        Redirect(location, true)
      case ExchangeThrew(t) =>
        var location := LoginErrorPrefix + UriComponent.Encode(ThrownMessage(t));
        assert location[..|LoginErrorPrefix|] == LoginErrorPrefix;
        Redirect(location, true)
  }

  /**
   * When the exchange throws an Error, the redirect carries its message as
   * the single `error` parameter, encoded so that it cannot start another
   * parameter, and the login page decodes exactly that message and shows
   * it in the generic form (the message not being one of the known codes).
   */
  lemma ThrownMessageReachesLoginPage(p: CallbackParams, message: string)
    requires !Truthy(p.error) && Truthy(p.code)
    requires message != "" && message !in {"access_denied", "auth_callback_error", "no_callback_code"}
    ensures var location := Get(p, ExchangeThrew(ErrorValue(message))).location;
            var value := location[|LoginErrorPrefix|..];
            && location == LoginErrorPrefix + value
            && (forall i :: 0 <= i < |value| ==> value[i] != '&' && value[i] != '#')
            && UriComponent.Decode(value) == Some(message)
            && AuthMessages.ErrorMessage(UriComponent.Decode(value), None)
                 == Some(AuthMessages.OtherErrorPrefix + message + " ")
  {
    var location := Get(p, ExchangeThrew(ErrorValue(message))).location;
    var value := UriComponent.Encode(message);
    assert location[|LoginErrorPrefix|..] == value;
    UriComponent.EncodedIsOneQueryValue(message);
    UriComponent.DecodeEncode(message);
    assert AuthMessages.OtherErrorPrefix + message + " " + "" == AuthMessages.OtherErrorPrefix + message + " ";
  }
}

=== FILE: auth_messages.dfy ===
/**
 * The message the login and sign-up pages show for the `error` and
 * `error_description` query parameters. Both pages hold the same mapping.
 */
module AuthMessages {
  import opened Wrappers
  import opened JsString

  const AccessDenied: string := "Googleアカウントへのアクセスが拒否されました。再度お試しください。"
  const CallbackErrorPrefix: string := "認証コールバックエラー: "
  const UnknownDescription: string := "不明なエラー"
  const NoCallbackCode: string := "認証コードが見つかりませんでした。再度お試しください。"
  const OtherErrorPrefix: string := "認証エラー: "

  /** The text shown, or `None` when no message is set. */
  function ErrorMessage(errorParam: Option<string>, description: Option<string>): (r: Option<string>)
    ensures r.None? <==> !Truthy(errorParam)
    ensures Truthy(errorParam) && errorParam.value == "access_denied" ==> r == Some(AccessDenied)
    ensures Truthy(errorParam) && errorParam.value == "auth_callback_error" ==>
              r == Some(CallbackErrorPrefix + (if Truthy(description) then description.value else UnknownDescription))
    ensures Truthy(errorParam) && errorParam.value == "no_callback_code" ==> r == Some(NoCallbackCode)
    ensures Truthy(errorParam) && errorParam.value !in {"access_denied", "auth_callback_error", "no_callback_code"} ==>
              r == Some(OtherErrorPrefix + errorParam.value + " "
                        + (if Truthy(description) then "- " + description.value else ""))
  {
    if !Truthy(errorParam) then None
    else
      var code := errorParam.value;
      if code == "access_denied" then Some(AccessDenied)
      else if code == "auth_callback_error" then
        Some(CallbackErrorPrefix + (if Truthy(description) then description.value else UnknownDescription))
      else if code == "no_callback_code" then Some(NoCallbackCode)
      else Some(OtherErrorPrefix + code + " " + (if Truthy(description) then "- " + description.value else ""))
  }

  /**
   * Only the generic case repeats the code: a message names the code the
   * page received exactly when the code is not one of the three known ones,
   * and the description is shown only for the callback error and the
   * generic case.
   */
  lemma UnknownCodesAreShown(code: string, description: Option<string>)
    requires code != "" && code !in {"access_denied", "auth_callback_error", "no_callback_code"}
    ensures var m := ErrorMessage(Some(code), description).value;
            StartsWith(m, OtherErrorPrefix + code + " ")
            && (Truthy(description) ==> m[|OtherErrorPrefix + code + " "|..] == "- " + description.value)
            && (!Truthy(description) ==> m == OtherErrorPrefix + code + " ")
  {
    var m := ErrorMessage(Some(code), description).value;
    var head := OtherErrorPrefix + code + " ";
    assert m[..|head|] == head;
  }

  /** The access-denied and missing-code messages do not depend on the description. */
  lemma FixedMessagesIgnoreDescription(d1: Option<string>, d2: Option<string>)
    ensures ErrorMessage(Some("access_denied"), d1) == ErrorMessage(Some("access_denied"), d2)
    ensures ErrorMessage(Some("no_callback_code"), d1) == ErrorMessage(Some("no_callback_code"), d2)
  {
  }
}

=== FILE: auth_redirect.dfy ===
/**
 * The client-side guard `AuthRedirect`: on mount it looks up the session
 * and navigates to `redirectTo` when the page's declared requirement does
 * not match whether a session exists.
 */
module AuthRedirect {
  import opened Wrappers

  /** The navigation `checkAuth` performs, if any. */
  function CheckAuth(requiredAuth: bool, redirectTo: string, hasSession: bool): (r: Option<string>)
    ensures r.Some? <==> requiredAuth != hasSession
    ensures r.Some? ==> r.value == redirectTo
  {
    if (requiredAuth && !hasSession) || (!requiredAuth && hasSession) then Some(redirectTo) else None
  }

  /** The list pages require a session and send visitors without one to the login page. */
  const ListPageTarget: string := "/login"
  /** The login and sign-up pages require its absence and send signed-in users to the summary page. */
  const SignInPageTarget: string := "/summary"

  /**
   * For any session state exactly one of the two kinds of page lets the
   * visitor stay, so the guards never send a visitor back and forth
   * between a list page and the login page.
   */
  lemma GuardsAreComplementary(hasSession: bool)
    ensures CheckAuth(true, ListPageTarget, hasSession).None?
            != CheckAuth(false, SignInPageTarget, hasSession).None?
    ensures hasSession ==> CheckAuth(false, SignInPageTarget, hasSession) == Some("/summary")
    ensures !hasSession ==> CheckAuth(true, ListPageTarget, hasSession) == Some("/login")
  {
  }
}

=== FILE: auth_routes.dfy ===
/**
 * POST /api/auth/signup and POST /api/auth/login: read `{ email, password }`,
 * hand them to the authentication provider, and relay its answer.
 * The provider is a parameter: what it answers, or what is thrown while the
 * route talks to it.
 */
module AuthRoutes {
  import opened Wrappers
  import opened JsString
  import opened Http

  /** What the provider call comes to: its `{ data, error }` answer, or a thrown value. */
  datatype ProviderResult =
    | Answered(data: AuthData)
    | Refused(message: string)
    | ProviderThrew(thrown: Thrown)

  /** The request made to the provider: the credentials, and for a sign-up the e-mail confirmation link. */
  datatype ProviderCall = ProviderCall(email: string, password: string, emailRedirectTo: Option<string>)

  /** The response together with the provider request it made, if any. */
  datatype AuthOutcome = AuthOutcome(response: Response, call: Option<ProviderCall>)

  const BodyUnreadable: string := "リクエストボディの解析に失敗しました"
  const CredentialsRequired: string := "メールアドレスとパスワードは必須です"
  const NoUser: string := "ユーザー情報の取得に失敗しました"
  const ConfirmEmail: string := "メールアドレスの確認が必要です。メールをご確認ください。"
  const UnknownError: string := "不明なエラーが発生しました"
  const ServerErrorPrefix: string := "エラーが発生しました: "
  const CallbackPath: string := "/api/auth/callback"

  /** Both routes go on to the provider exactly when the body parsed and both fields are non-empty strings. */
  predicate HasCredentials(body: RequestBody) {
    Truthy(BodyField(body, "email")) && Truthy(BodyField(body, "password"))
  }

  /** The answer both routes give before the provider is involved; `None` when they go on. */
  function Validate(body: RequestBody): (r: Option<Response>)
    ensures r.None? <==> HasCredentials(body)
    ensures body.Unparsable? ==> r == Some(Response(400, ErrorBody(BodyUnreadable)))
    ensures body.Json? && !HasCredentials(body) ==> r == Some(Response(400, ErrorBody(CredentialsRequired)))
  {
    if body.Unparsable? then Some(Response(400, ErrorBody(BodyUnreadable)))
    else if !HasCredentials(body) then Some(Response(400, ErrorBody(CredentialsRequired)))
    else None
  }

  /** The confirmation link: the request's `Origin` header (the text "null" when absent) followed by the callback path. */
  function ConfirmationLink(origin: Option<string>): (r: string)
    ensures origin.Some? ==> r == origin.value + CallbackPath
    ensures origin.None? ==> r == "null" + CallbackPath
  {
    origin.GetOr("null") + CallbackPath
  }

  /**
   * The message the sign-up route reports for a thrown value: an Error's
   * message, a thrown string itself, an object's string `message`, or a
   * fixed text.
   */
  function SignUpCaughtMessage(t: Thrown): (m: string)
    ensures t.ErrorValue? ==> m == t.message
    ensures t.StringValue? ==> m == t.text
    ensures t.ObjectValue? && t.messageMember.Some? ==> m == t.messageMember.value
    ensures t.OtherValue? || t == ObjectValue(None) ==> m == UnknownError
  {
    match t
    case ErrorValue(message) => message
    case StringValue(text) => text
    case ObjectValue(Some(message)) => message
    case _ => UnknownError
  }

  function SignUp(body: RequestBody, origin: Option<string>, provider: ProviderResult): (r: AuthOutcome)
    // the provider is asked exactly when credentials are present, with exactly those credentials
    ensures r.call.Some? <==> HasCredentials(body)
    ensures r.call.Some? ==>
              r.call.value == ProviderCall(body.fields["email"], body.fields["password"],
                                           Some(ConfirmationLink(origin)))
    ensures r.call.None? ==> Some(r.response) == Validate(body)
    ensures r.call.Some? && provider.Refused? ==> r.response == Response(400, ErrorBody(provider.message))
    ensures r.call.Some? && provider.Answered? && provider.data.user.None? ==>
              r.response == Response(400, ErrorBody(NoUser))
    // a user without any identity has yet to confirm the address
    ensures r.call.Some? && provider.Answered? && provider.data.user.Some? ==>
              r.response.status == 200
              && (r.response.payload.ConfirmEmailBody? <==> provider.data.user.value.identities == Some([]))
              && (r.response.payload.ConfirmEmailBody? ==>
                    r.response.payload == ConfirmEmailBody(ConfirmEmail, provider.data))
              && (!r.response.payload.ConfirmEmailBody? ==> r.response.payload == DataBody(provider.data))
    ensures r.call.Some? && provider.ProviderThrew? ==>
              r.response == Response(500, ErrorBody(ServerErrorPrefix + SignUpCaughtMessage(provider.thrown)))
  {
    match Validate(body)
    case Some(answer) => AuthOutcome(answer, None)
    case None =>
      var call := ProviderCall(body.fields["email"], body.fields["password"], Some(ConfirmationLink(origin)));
      var response :=
        match provider
        case Refused(message) => Response(400, ErrorBody(message))
        case ProviderThrew(t) => Response(500, ErrorBody(ServerErrorPrefix + SignUpCaughtMessage(t)))
        case Answered(data) =>
          match data.user
          case None => Response(400, ErrorBody(NoUser))
          case Some(user) =>
            if user.identities.Some? && |user.identities.value| == 0
            then Response(200, ConfirmEmailBody(ConfirmEmail, data))
            else Response(200, DataBody(data));
      AuthOutcome(response, Some(call))
  }

  function LogIn(body: RequestBody, provider: ProviderResult): (r: AuthOutcome)
    ensures r.call.Some? <==> HasCredentials(body)
    ensures r.call.Some? ==>
              r.call.value == ProviderCall(body.fields["email"], body.fields["password"], None)
    ensures r.call.None? ==> Some(r.response) == Validate(body)
    // a successful sign-in relays the provider's data whatever it holds
    ensures r.call.Some? && provider.Answered? ==> r.response == Response(200, DataBody(provider.data))
    ensures r.call.Some? && provider.Refused? ==> r.response == Response(400, ErrorBody(provider.message))
    ensures r.call.Some? && provider.ProviderThrew? ==>
              r.response == Response(500, ErrorBody(ServerErrorPrefix + ErrorMessageOr(provider.thrown, UnknownError)))
  {
    match Validate(body)
    case Some(answer) => AuthOutcome(answer, None)
    case None =>
      var call := ProviderCall(body.fields["email"], body.fields["password"], None);
      var response :=
        match provider
        case Answered(data) => Response(200, DataBody(data))
        case Refused(message) => Response(400, ErrorBody(message))
        case ProviderThrew(t) => Response(500, ErrorBody(ServerErrorPrefix + ErrorMessageOr(t, UnknownError)));
      AuthOutcome(response, Some(call))
  }

  /**
   * The two routes differ only in what they do with a successful answer
   * and in how they describe a thrown value that is not an Error: they
   * reject the same bodies with the same answers, send the same
   * credentials, and report a refusal or a thrown Error identically.
   */
  lemma SignUpAndLogInAgree(body: RequestBody, origin: Option<string>, provider: ProviderResult)
    ensures SignUp(body, origin, provider).call.Some? == LogIn(body, provider).call.Some?
    ensures LogIn(body, provider).call.Some? ==>
              SignUp(body, origin, provider).call.value
                == LogIn(body, provider).call.value.(emailRedirectTo := Some(ConfirmationLink(origin)))
    ensures !HasCredentials(body) ==> SignUp(body, origin, provider).response == LogIn(body, provider).response
    ensures provider.Refused? || (provider.ProviderThrew? && provider.thrown.ErrorValue?) ==>
              SignUp(body, origin, provider).response == LogIn(body, provider).response
    ensures HasCredentials(body) && provider.ProviderThrew? && (provider.thrown.StringValue? || provider.thrown.ObjectValue?) ==>
              LogIn(body, provider).response.payload.error == ServerErrorPrefix + UnknownError
  {
  }

  /**
   * Which answers are successes: a sign-in succeeds exactly when the
   * provider answers, a sign-up exactly when it answers with a user; every
   * other outcome is a 400 for the client's or provider's refusal, or a 500
   * for something thrown.
   */
  lemma StatusClassifiesOutcome(body: RequestBody, origin: Option<string>, provider: ProviderResult)
    ensures var r := LogIn(body, provider).response;
            && (r.status == 200 <==> HasCredentials(body) && provider.Answered?)
            && (r.status == 500 <==> HasCredentials(body) && provider.ProviderThrew?)
            && (r.status != 200 ==> r.status in {400, 500} && r.payload.ErrorBody?)
    ensures var r := SignUp(body, origin, provider).response;
            && (r.status == 200 <==> HasCredentials(body) && provider.Answered? && provider.data.user.Some?)
            && (r.status == 500 <==> HasCredentials(body) && provider.ProviderThrew?)
            && (r.status != 200 ==> r.status in {400, 500} && r.payload.ErrorBody?)
  {
  }
}

=== FILE: credentials.dfy ===
/**
 * The OpenAI credential lookup shared by the summarize, translate and
 * env-test routes: four variable names are tried in a fixed order and the
 * first one holding a non-empty value wins. The env-test route also reports
 * which name matched, the key's length, a format check and a short preview,
 * and, when nothing matched, a filtered list of variable names.
 */
module Credentials {
  import opened Wrappers
  import opened JsString
  import opened Environment
  import opened Http

  /** The names tried, in order. */
  const ApiKeyNames: seq<string> :=
    ["OPENAI_API_KEY", "NEXT_PUBLIC_OPENAI_API_KEY", "OPENAI_KEY", "NEXT_PUBLIC_OPENAI_KEY"]

  /** A variable that matched: its name and its (non-empty) value. */
  datatype Found = Found(name: string, value: string)

  /**
   * The first of `names` that is set in `env`, with its value; `None` when
   * none of them is set.
   */
  function FirstSet(env: Env, names: seq<string>): (r: Option<Found>)
    ensures r.Some? ==> Get(env, r.value.name) == Some(r.value.value) && r.value.value != ""
    ensures r.Some? ==> exists i :: 0 <= i < |names| && names[i] == r.value.name
                                    && forall j :: 0 <= j < i ==> !IsSet(env, names[j])
    ensures r.None? <==> forall i :: 0 <= i < |names| ==> !IsSet(env, names[i])
  {
    if |names| == 0 then None
    else if IsSet(env, names[0]) then Some(Found(names[0], Get(env, names[0]).value))
    else
      var r := FirstSet(env, names[1..]);
      if r.Some? then
        var i :| 0 <= i < |names[1..]| && names[1..][i] == r.value.name
                 && forall j :: 0 <= j < i ==> !IsSet(env, names[1..][j]);
        assert names[i + 1] == r.value.name;
        assert forall j :: 0 <= j < i + 1 ==> !IsSet(env, names[j]) by {
          forall j | 0 <= j < i + 1
            ensures !IsSet(env, names[j])
          {
            if j > 0 { assert names[j] == names[1..][j - 1]; }
          }
        }
        r
      else
        assert forall i :: 0 <= i < |names| ==> !IsSet(env, names[i]) by {
          forall i | 0 <= i < |names|
            ensures !IsSet(env, names[i])
          {
            if i > 0 { assert names[i] == names[1..][i - 1]; }
          }
        }
        r
  }

  /** The env-test route's `getOpenAIApiKey`, which answers `{ key, value }`. */
  function FindApiKey(env: Env): Option<Found> {
    FirstSet(env, ApiKeyNames)
  }

  /** The summarize and translate routes' `getOpenAIApiKey`, which answers the value alone. */
  function ApiKey(env: Env): (r: Option<string>)
    ensures r.Some? ==> r.value != ""
  {
    match FindApiKey(env)
    case Some(f) => Some(f.value)
    case None => None
  }

  /**
   * The lookup written out as the cascade it is: each name is consulted only
   * when every earlier one is unset or empty, and the result is `None` only
   * when all four are.
   */
  lemma ApiKeyCascade(env: Env)
    ensures ApiKey(env) ==
      if IsSet(env, "OPENAI_API_KEY") then Get(env, "OPENAI_API_KEY")
      else if IsSet(env, "NEXT_PUBLIC_OPENAI_API_KEY") then Get(env, "NEXT_PUBLIC_OPENAI_API_KEY")
      else if IsSet(env, "OPENAI_KEY") then Get(env, "OPENAI_KEY")
      else if IsSet(env, "NEXT_PUBLIC_OPENAI_KEY") then Get(env, "NEXT_PUBLIC_OPENAI_KEY")
      else None
  {
    var n := ApiKeyNames;
    FirstSetStep(env, n);
    FirstSetStep(env, n[1..]);
    FirstSetStep(env, n[1..][1..]);
    FirstSetStep(env, n[1..][1..][1..]);
    assert n[1..][1..][1..][1..] == [];
  }

  /** One step of the search: the head name wins when set, otherwise the search moves on. */
  lemma FirstSetStep(env: Env, names: seq<string>)
    requires |names| > 0
    ensures FirstSet(env, names) ==
      if IsSet(env, names[0]) then Some(Found(names[0], Get(env, names[0]).value))
      else FirstSet(env, names[1..])
  {
  }

  /** The env-test lookup reports exactly the name and value the other routes would use. */
  lemma FindApiKeyAgreesWithApiKey(env: Env)
    ensures FindApiKey(env).None? <==> ApiKey(env).None?
    ensures FindApiKey(env).Some? ==>
              FindApiKey(env).value.name in ApiKeyNames
              && ApiKey(env) == Some(FindApiKey(env).value.value)
              && IsSet(env, FindApiKey(env).value.name)
  {
    var f := FindApiKey(env);
    if f.Some? {
      var i :| 0 <= i < |ApiKeyNames| && ApiKeyNames[i] == f.value.name
               && forall j :: 0 <= j < i ==> !IsSet(env, ApiKeyNames[j]);
    }
  }

  /** The listing never shows more than this many names. */
  const MaxListedNames: nat := 10

  /** The name contains SECRET, KEY or TOKEN and is kept out of the env-test listing. */
  predicate Sensitive(name: string) {
    Includes(name, "SECRET") || Includes(name, "KEY") || Includes(name, "TOKEN")
  }

  /** `.filter(k => !k.includes('SECRET') && !k.includes('KEY') && !k.includes('TOKEN'))`. */
  function VisibleNames(names: seq<string>): (r: seq<string>)
    ensures |r| <= |names|
    ensures forall k :: k in r ==> k in names && !Sensitive(k)
    ensures forall k :: k in names && !Sensitive(k) ==> k in r
  {
    if |names| == 0 then []
    else if Sensitive(names[0]) then VisibleNames(names[1..])
    else [names[0]] + VisibleNames(names[1..])
  }

  /**
   * The filter goes name by name and keeps the order: a single name is kept
   * exactly when it is not sensitive, and filtering a concatenation filters
   * each part. Together these determine the filtered list, order and
   * repetitions included.
   */
  lemma {:induction false} VisibleNamesKeepsOrder(a: seq<string>, b: seq<string>)
    ensures VisibleNames(a + b) == VisibleNames(a) + VisibleNames(b)
    ensures |a| == 1 ==> VisibleNames(a) == (if Sensitive(a[0]) then [] else a)
    decreases |a|
  {
    if |a| == 0 {
      assert a + b == b;
    } else {
      assert (a + b)[0] == a[0];
      assert (a + b)[1..] == a[1..] + b;
      VisibleNamesKeepsOrder(a[1..], b);
      if |a| == 1 {
        assert a[1..] == [];
      }
    }
  }

  /** `.slice(0, 10)`: at most the first ten. */
  function FirstListed(names: seq<string>): (r: seq<string>)
    ensures |r| <= MaxListedNames
    ensures |names| <= MaxListedNames ==> r == names
    ensures |names| > MaxListedNames ==> r == names[..MaxListedNames]
  {
    if |names| <= MaxListedNames then names else names[..MaxListedNames]
  }

  const NoKeyError: string := "APIキーが見つかりません"

  /** `value.startsWith('sk-') && value.length > 20`. */
  predicate KeyFormatValid(value: string) {
    StartsWith(value, "sk-") && |value| > 20
  }

  /** `${value.substring(0, 4)}...${value.substring(value.length - 4)}`. */
  function KeyPreview(value: string): (r: string)
    ensures |value| >= 4 ==> r == value[..4] + "..." + value[|value| - 4..]
    ensures |value| < 4 ==> r == value + "..." + value
  {
    Substring(value, 0, 4) + "..." + SubstringFrom(value, |value| - 4)
  }

  /**
   * GET /api/summarize/env-test. Every answer carries the default status 200.
   * With no key found, the body lists at most ten variable names, none of
   * them containing SECRET, KEY or TOKEN; otherwise it describes the key
   * that matched.
   */
  function EnvTest(env: Env): (r: Response)
    ensures r.status == 200
    ensures FindApiKey(env).None? ==>
              && r.payload.KeyNotFound?
              && r.payload.error == NoKeyError
              && |r.payload.envKeys| <= MaxListedNames
              && (forall k :: k in r.payload.envKeys ==> k in Names(env) && !Sensitive(k))
    // the listing is the first ten visible names, in `Object.keys` order
    ensures FindApiKey(env).None? ==>
              var visible := VisibleNames(Names(env));
              var n := if |visible| < MaxListedNames then |visible| else MaxListedNames;
              r.payload.envKeys == visible[..n]
    ensures FindApiKey(env).Some? ==>
              var f := FindApiKey(env).value;
              && r.payload.KeyFound?
              && r.payload.keyName == f.name
              && IsSet(env, r.payload.keyName)
              && r.payload.keyExists
              && r.payload.keyLength == |f.value|
              && r.payload.keyFormatValid == (StartsWith(f.value, "sk-") && |f.value| > 20)
              && r.payload.keyPreview == KeyPreview(f.value)
  {
    match FindApiKey(env)
    case None =>
      Response(200, KeyNotFound(NoKeyError, FirstListed(VisibleNames(Names(env)))))
    case Some(f) =>
      Response(200, KeyFound(f.name, true, |f.value|, KeyFormatValid(f.value), KeyPreview(f.value)))
  }

  /** A key the format check accepts is always long enough for a full four-and-four preview. */
  lemma ValidKeyPreview(value: string)
    requires KeyFormatValid(value)
    ensures KeyPreview(value) == "sk-" + [value[3]] + "..." + value[|value| - 4..]
    ensures |KeyPreview(value)| == 11
  {
    assert value[..4] == value[..3] + [value[3]];
  }
}

=== FILE: environment.dfy ===
/**
 * `process.env`: the variables visible to a route handler, in the order
 * `Object.keys(process.env)` lists them. The environment is fixed for the
 * lifetime of the server process.
 */
module Environment {
  import opened Wrappers
  import opened JsString

  datatype Var = Var(name: string, value: string)

  type Env = seq<Var>

  /** `process.env[name]`: the value of the first variable with that name, if any. */
  function Get(env: Env, name: string): (r: Option<string>)
    ensures r.None? <==> forall i :: 0 <= i < |env| ==> env[i].name != name
    ensures r.Some? ==> exists i :: 0 <= i < |env| && env[i] == Var(name, r.value)
  {
    if |env| == 0 then None
    else if env[0].name == name then Some(env[0].value)
    else
      var r := Get(env[1..], name);
      assert r.Some? ==> env[1..][0] == env[1];
      r
  }

  /** `if (process.env[name])`: the variable is present with a non-empty value. */
  predicate IsSet(env: Env, name: string) {
    Truthy(Get(env, name))
  }

  /** `Object.keys(process.env)`. */
  function Names(env: Env): (r: seq<string>)
    ensures |r| == |env|
    ensures forall i :: 0 <= i < |env| ==> r[i] == env[i].name
  {
    seq(|env|, i requires 0 <= i < |env| => env[i].name)
  }
}

=== FILE: http.dfy ===
/**
 * The shapes route handlers read and write: a JSON request body, the
 * JSON response bodies the application sends, a response with its status,
 * and the values a JavaScript `catch` clause can receive.
 */
module Http {
  import opened Wrappers

  /**
   * A request body after `JSON.parse` / `request.json()`: either it did not
   * parse (with the parser's message), or it is an object whose string-valued
   * members are `fields`; a member that is absent or `null` is not in the map.
   */
  datatype RequestBody = Unparsable(reason: string) | Json(fields: map<string, string>)

  /** `body.<name>` of a parsed body. */
  function Field(fields: map<string, string>, name: string): (r: Option<string>)
    ensures r.Some? <==> name in fields
    ensures r.Some? ==> r.value == fields[name]
  {
    if name in fields then Some(fields[name]) else None
  }

  /** `body.<name>` of a request body; nothing when the body did not parse. */
  function BodyField(body: RequestBody, name: string): (r: Option<string>)
    ensures body.Unparsable? ==> r.None?
    ensures body.Json? ==> (r.Some? <==> name in body.fields)
    ensures r.Some? ==> body.Json? && r.value == body.fields[name]
  {
    match body
    case Unparsable(_) => None
    case Json(fields) => Field(fields, name)
  }

  /** A user as the authentication provider reports it. */
  datatype AuthUser = AuthUser(id: string, email: string, identities: Option<seq<string>>)

  /** The `data` object of a sign-in or sign-up answer, passed to the client verbatim. */
  datatype AuthData = AuthData(user: Option<AuthUser>, session: Option<string>)

  /** The JSON bodies the routes answer with, one constructor per object shape. */
  datatype Payload =
    | Detail(detail: string)                                   // { detail }
    | ErrorBody(error: string)                                 // { error }
    | SummaryBody(summary: string)                             // { summary }
    | TranslationBody(translatedText: string)                  // { translatedText }
    | SaveSuccess                                              // { status: "success" }
    | DataBody(data: AuthData)                                 // { data }
    | ConfirmEmailBody(message: string, data: AuthData)        // { message, data }
    | KeyFound(keyName: string, keyExists: bool, keyLength: nat,
               keyFormatValid: bool, keyPreview: string)       // env-test, key found
    | KeyNotFound(error: string, envKeys: seq<string>)         // env-test, no key

  /** `NextResponse.json(payload, { status })`; the status defaults to 200. */
  datatype Response = Response(status: nat, payload: Payload)

  /**
   * A thrown value: an `Error` instance, a thrown string, some other object
   * (with its `message` member when that is a string), or anything else.
   */
  datatype Thrown =
    | ErrorValue(message: string)
    | StringValue(text: string)
    | ObjectValue(messageMember: Option<string>)
    | OtherValue

  /**
   * `${e.message}` in a template: an Error's message, an object's string
   * `message`, and "undefined" for a value without one.
   */
  function MessageText(t: Thrown): (r: string)
    ensures t.ErrorValue? ==> r == t.message
    ensures t.ObjectValue? && t.messageMember.Some? ==> r == t.messageMember.value
    ensures t.StringValue? || t.OtherValue? || t == ObjectValue(None) ==> r == "undefined"
  {
    match t
    case ErrorValue(m) => m
    case ObjectValue(Some(m)) => m
    case _ => "undefined"
  }

  /** `err instanceof Error ? err.message : fallback`. */
  function ErrorMessageOr(t: Thrown, fallback: string): (r: string)
    ensures t.ErrorValue? ==> r == t.message
    ensures !t.ErrorValue? ==> r == fallback
  {
    match t
    case ErrorValue(m) => m
    case _ => fallback
  }
}

=== FILE: js_string.dfy ===
/**
 * The handful of JavaScript string operations the application relies on,
 * with their ECMAScript semantics written out. A Dafny `char` stands for one
 * UTF-16 code unit of the JavaScript string (the two agree on text inside the
 * Basic Multilingual Plane), so `|s|` is JavaScript's `s.length`.
 */
module JsString {
  import opened Wrappers

  /** JavaScript truthiness of an optional string field: present and not "". */
  predicate Truthy(s: Option<string>) {
    s.Some? && s.value != ""
  }

  /** An index argument clamped into [0, n], as `substring` does with its arguments. */
  function Clamp(i: int, n: nat): (r: nat)
    ensures r <= n
    ensures 0 <= i <= n ==> r == i
    ensures i < 0 ==> r == 0
    ensures i > n ==> r == n
  {
    if i < 0 then 0 else if i > n then n else i
  }

  /**
   * `s.substring(start, end)`: both bounds are clamped into [0, |s|] and
   * swapped when the first exceeds the second.
   */
  function Substring(s: string, start: int, end: int): (r: string)
    ensures |r| <= |s|
    ensures 0 <= start <= end <= |s| ==> r == s[start..end]
    ensures 0 <= end <= start <= |s| ==> r == s[end..start]
    ensures start <= 0 && |s| <= end ==> r == s
  {
    var a := Clamp(start, |s|);
    var b := Clamp(end, |s|);
    if a <= b then s[a..b] else s[b..a]
  }

  /** `s.substring(start)`: the suffix from the clamped start. */
  function SubstringFrom(s: string, start: int): (r: string)
    ensures 0 <= start <= |s| ==> r == s[start..]
    ensures start < 0 ==> r == s
    ensures start > |s| ==> r == ""
  {
    Substring(s, start, |s|)
  }

  /** `s.startsWith(p)`. */
  predicate StartsWith(s: string, p: string) {
    |p| <= |s| && s[..|p|] == p
  }

  /** `s.includes(p)`: `p` occurs somewhere in `s` as a contiguous slice. */
  predicate Includes(s: string, p: string) {
    exists i :: 0 <= i <= |s| - |p| && OccursAt(s, p, i)
  }

  /** `p` occurs in `s` starting at index `i`. */
  predicate OccursAt(s: string, p: string, i: int) {
    0 <= i <= |s| - |p| && s[i..i + |p|] == p
  }

  /**
   * The shape shared by every length cap in the application: a string longer
   * than `max` becomes its first `max` characters followed by `suffix`;
   * any other string is left as it is.
   */
  function ClipWithSuffix(s: string, max: nat, suffix: string): (r: string)
    ensures |s| <= max ==> r == s
    ensures |s| > max ==> r == s[..max] + suffix
    ensures |r| <= max + |suffix| || r == s
  {
    if |s| > max then Substring(s, 0, max) + suffix else s
  }

  /** Clipping keeps the input's first `max` characters (all of it when short). */
  lemma ClipKeepsPrefix(s: string, max: nat, suffix: string)
    ensures var k := if |s| < max then |s| else max;
            |ClipWithSuffix(s, max, suffix)| >= k
            && ClipWithSuffix(s, max, suffix)[..k] == s[..k]
  {
  }

  predicate IsDigit(c: char) {
    '0' <= c <= '9'
  }

  function DigitChar(d: nat): (c: char)
    requires d < 10
    ensures IsDigit(c)
    ensures (c as int) - ('0' as int) == d
  {
    "0123456789"[d]
  }

  function DigitValue(c: char): (d: nat)
    requires IsDigit(c)
    ensures d < 10
  {
    (c as int) - ('0' as int)
  }

  /**
   * The decimal rendering `${n}` of a non-negative integer (an HTTP status
   * code in a template literal): digits only, no leading zero.
   */
  function NatToString(n: nat): (r: string)
    ensures |r| >= 1
    ensures forall i :: 0 <= i < |r| ==> IsDigit(r[i])
    ensures n > 0 ==> r[0] != '0'
    decreases n
  {
    if n < 10 then [DigitChar(n)] else NatToString(n / 10) + [DigitChar(n % 10)]
  }

  /** The value of a string of decimal digits, read most significant first. */
  function DecimalValue(s: string): nat
    requires forall i :: 0 <= i < |s| ==> IsDigit(s[i])
  {
    if |s| == 0 then 0 else DecimalValue(s[..|s| - 1]) * 10 + DigitValue(s[|s| - 1])
  }

  /** Reading back the rendering of `n` gives `n`: the rendering loses nothing. */
  lemma {:induction false} DecimalRoundTrip(n: nat)
    ensures DecimalValue(NatToString(n)) == n
    decreases n
  {
    var r := NatToString(n);
    if n >= 10 {
      DecimalRoundTrip(n / 10);
      assert r[..|r| - 1] == NatToString(n / 10);
    }
  }

  /** The number of digits at the start of `s`. */
  function LeadingDigitCount(s: string): (n: nat)
    ensures n <= |s|
  {
    if |s| > 0 && IsDigit(s[0]) then 1 + LeadingDigitCount(s[1..]) else 0
  }

  /** A run of digits followed by a space is exactly the leading digits of the whole. */
  lemma {:induction false} LeadingDigitsEndAtSpace(d: string, t: string)
    requires forall i :: 0 <= i < |d| ==> IsDigit(d[i])
    ensures LeadingDigitCount(d + " " + t) == |d|
    decreases |d|
  {
    if |d| > 0 {
      assert (d + " " + t)[1..] == d[1..] + " " + t;
      LeadingDigitsEndAtSpace(d[1..], t);
    }
  }

  /** Distinct numbers render differently. */
  lemma NatToStringInjective(m: nat, n: nat)
    requires NatToString(m) == NatToString(n)
    ensures m == n
  {
    DecimalRoundTrip(m);
    DecimalRoundTrip(n);
  }
}

=== FILE: list_page.dfy ===
/**
 * The two list pages, `/summaries` and `/saved`, which hold identical copies
 * of the display helpers and of the offset-pagination controls, and differ
 * only in what `fetchSummaries` does without a signed-in user and in how a
 * non-Error exception is reported.
 */
module ListPage {
  import opened Wrappers
  import opened JsString
  import opened Http

  /** A list entry as the list endpoint returns it. */
  datatype Item = Item(id: string, summary: string, url: Option<string>, createdAt: string)

  /** The `{ total, skip, limit }` of the last page fetched (JavaScript numbers, taken as integers). */
  datatype Pagination = Pagination(total: int, skip: int, limit: int)

  /** Both pages start at the first page of ten with nothing counted yet. */
  const InitialPagination: Pagination := Pagination(0, 0, 10)

  const NoUrl: string := "URL なし"
  const Ellipsis: string := "..."
  const MaxUrlLength: nat := 50
  const MaxSummaryLength: nat := 100

  /** `truncateUrl(url)`: "URL なし" for a missing or empty url, else the url cut at 50 characters. */
  function TruncateUrl(url: Option<string>): (r: string)
    ensures !Truthy(url) ==> r == NoUrl
    ensures Truthy(url) && |url.value| <= MaxUrlLength ==> r == url.value
    ensures Truthy(url) && |url.value| > MaxUrlLength ==> r == url.value[..MaxUrlLength] + Ellipsis
  {
    if !Truthy(url) then NoUrl else ClipWithSuffix(url.value, MaxUrlLength, Ellipsis)
  }

  /** `truncateSummary(summary)`: the summary cut at 100 characters. */
  function TruncateSummary(summary: string): (r: string)
    ensures |summary| <= MaxSummaryLength ==> r == summary
    ensures |summary| > MaxSummaryLength ==> r == summary[..MaxSummaryLength] + Ellipsis
  {
    ClipWithSuffix(summary, MaxSummaryLength, Ellipsis)
  }

  /**
   * What is displayed never exceeds the cap plus the ellipsis, and always
   * begins with what it stands for.
   */
  lemma DisplayedTextBounded(url: string, summary: string)
    requires url != ""
    ensures |TruncateUrl(Some(url))| <= MaxUrlLength + |Ellipsis|
    ensures |TruncateSummary(summary)| <= MaxSummaryLength + |Ellipsis|
    ensures var k := if |url| < MaxUrlLength then |url| else MaxUrlLength;
            TruncateUrl(Some(url))[..k] == url[..k]
    ensures var k := if |summary| < MaxSummaryLength then |summary| else MaxSummaryLength;
            TruncateSummary(summary)[..k] == summary[..k]
  {
    ClipKeepsPrefix(url, MaxUrlLength, Ellipsis);
    ClipKeepsPrefix(summary, MaxSummaryLength, Ellipsis);
  }

  // ---------------------------------------------------------------------
  // Pagination controls

  /** The controls are rendered only when there is more than one page. */
  predicate ShowsPager(p: Pagination) {
    p.total > p.limit
  }

  /** The "previous" button's target: `Math.max(0, skip - limit)`. */
  function PreviousSkip(p: Pagination): (s: int)
    ensures s >= 0
    ensures s == 0 || s == p.skip - p.limit
    ensures p.skip - p.limit >= 0 ==> s == p.skip - p.limit
  {
    if p.skip - p.limit > 0 then p.skip - p.limit else 0
  }

  predicate PreviousDisabled(p: Pagination) {
    p.skip == 0
  }

  /** The "next" button's target: `skip + limit`. */
  function NextSkip(p: Pagination): int {
    p.skip + p.limit
  }

  predicate NextDisabled(p: Pagination) {
    p.skip + p.limit >= p.total
  }

  /** The label `skip+1 - min(skip+limit, total) / total 件`, as its three numbers. */
  datatype RangeLabel = RangeLabel(first: int, last: int, total: int)

  function Label(p: Pagination): (l: RangeLabel)
    ensures l.first == p.skip + 1
    ensures l.last <= p.total && l.last <= p.skip + p.limit
    ensures l.last == p.total || l.last == p.skip + p.limit
    ensures l.total == p.total
  {
    RangeLabel(p.skip + 1, if p.skip + p.limit < p.total then p.skip + p.limit else p.total, p.total)
  }

  /** A pagination as the list pages request it: a non-negative offset and a positive page size. */
  predicate WellFormed(p: Pagination) {
    0 <= p.skip && 0 < p.limit && 0 <= p.total
  }

  /** Going forward one page and back again returns to the same offset. */
  lemma PreviousUndoesNext(p: Pagination)
    requires 0 <= p.skip && 0 <= p.limit
    ensures PreviousSkip(p.(skip := NextSkip(p))) == p.skip
  {
  }

  /**
   * "Previous" is disabled exactly on the first page, and otherwise moves
   * strictly backwards without going below zero.
   */
  lemma PreviousMovesBack(p: Pagination)
    requires WellFormed(p)
    ensures PreviousDisabled(p) <==> p.skip == 0
    ensures !PreviousDisabled(p) ==> 0 <= PreviousSkip(p) < p.skip
  {
  }

  /**
   * When "next" is enabled the next page starts inside the list, and its
   * label continues right after the current one.
   */
  lemma NextContinuesLabel(p: Pagination)
    requires WellFormed(p) && !NextDisabled(p)
    ensures 0 <= NextSkip(p) < p.total
    ensures Label(p.(skip := NextSkip(p))).first == Label(p).last + 1
  {
  }

  /** On a page that starts inside the list, the label is a non-empty range of at most `limit` entries within 1..total. */
  lemma LabelWithinTotal(p: Pagination)
    requires WellFormed(p) && p.skip < p.total
    ensures 1 <= Label(p).first <= Label(p).last <= p.total
    ensures Label(p).last - Label(p).first + 1 <= p.limit
  {
  }

  /**
   * Starting from the first page and pressing "next" until it is disabled
   * visits the offsets 0, limit, 2*limit, ..., each inside the list, and
   * the labels of the visited pages cover 1..total without gaps.
   */
  method WalkPages(total: int, limit: int) returns (skips: seq<int>)
    requires 0 < limit && 0 <= total
    ensures |skips| >= 1 && skips[0] == 0
    ensures forall i :: 0 <= i < |skips| ==> skips[i] == i * limit
    ensures forall i :: 0 < i < |skips| ==> skips[i] < total
    ensures forall i :: 0 <= i < |skips| - 1 ==>
              !NextDisabled(Pagination(total, skips[i], limit))
              && skips[i + 1] == NextSkip(Pagination(total, skips[i], limit))
    ensures NextDisabled(Pagination(total, skips[|skips| - 1], limit))
    ensures Label(Pagination(total, skips[|skips| - 1], limit)).last == total
  {
    var skip := 0;
    skips := [0];
    while skip + limit < total
      invariant |skips| >= 1 && skips[0] == 0
      invariant skip == skips[|skips| - 1]
      invariant forall i :: 0 <= i < |skips| ==> skips[i] == i * limit
      invariant forall i :: 0 < i < |skips| ==> skips[i] < total
      invariant forall i :: 0 <= i < |skips| - 1 ==>
                  !NextDisabled(Pagination(total, skips[i], limit))
                  && skips[i + 1] == NextSkip(Pagination(total, skips[i], limit))
      decreases total - skip
    {
      skip := skip + limit;
      skips := skips + [skip];
    }
  }

  // ---------------------------------------------------------------------
  // fetchSummaries

  /** Which copy of the page: `/summaries` or `/saved`. */
  datatype Variant = SummariesPage | SavedPage

  /** The component state `fetchSummaries` reads and writes. */
  datatype PageState = PageState(
    userId: Option<string>,
    loading: bool,
    error: Option<string>,
    summaries: seq<Item>,
    pagination: Pagination)

  /** The request `GET .../summaries/<user>?skip=<skip>&limit=<limit>`. */
  datatype ListRequest = ListRequest(userId: string, skip: int, limit: int)

  /** What the list request comes to. */
  datatype ListReply =
    | Listed(items: seq<Item>, total: int, skip: int, limit: int)
    | NotOk(detail: Option<string>)
    | Threw(thrown: Thrown)

  const FetchFailed: string := "要約の取得に失敗しました"
  const UnknownError: string := "不明なエラーが発生しました"
  const ErrorLabel: string := "エラー: "

  /**
   * The message of the error caught by `fetchSummaries`: a non-ok answer
   * throws `new Error(detail || "要約の取得に失敗しました")`; for anything else
   * thrown, `/summaries` reads `err.message` and `/saved` takes an Error's
   * message or a fixed text. Everything the `try` block can throw (`fetch`,
   * `response.json()`, `new Error`) is an Error; for other values the
   * `/summaries` case gives an object's string `message`, or "undefined" for
   * an object without one.
   */
  function CaughtMessage(v: Variant, reply: ListReply): (m: string)
    requires !reply.Listed?
    ensures reply.NotOk? && Truthy(reply.detail) ==> m == reply.detail.value
    ensures reply.NotOk? && !Truthy(reply.detail) ==> m == FetchFailed
    ensures reply.Threw? && reply.thrown.ErrorValue? ==> m == reply.thrown.message
    ensures v == SavedPage && reply.Threw? && !reply.thrown.ErrorValue? ==> m == UnknownError
    ensures v == SummariesPage && reply.Threw? && !reply.thrown.ErrorValue? ==>
              m == (if reply.thrown.ObjectValue? && reply.thrown.messageMember.Some?
                    then reply.thrown.messageMember.value else "undefined")
  {
    match reply
    case NotOk(detail) => if Truthy(detail) then detail.value else FetchFailed
    case Threw(t) =>
      match v
      case SavedPage => ErrorMessageOr(t, UnknownError)
      case SummariesPage => MessageText(t)
  }

  /**
   * `fetchSummaries(skip, limit)`: the state afterwards and the request
   * issued. Without a user nothing is requested; `/saved` then also clears
   * the loading flag. Otherwise the listing and pagination are replaced by
   * the answer's, or an error is shown and they are kept.
   */
  function FetchSummaries(v: Variant, s: PageState, skip: int, limit: int, reply: ListReply)
    : (r: (PageState, Option<ListRequest>))
    ensures s.userId.None? ==> r.1.None? && r.0.summaries == s.summaries
                               && r.0.pagination == s.pagination && r.0.error == s.error
    ensures s.userId.None? && v == SummariesPage ==> r.0 == s
    ensures s.userId.None? && v == SavedPage ==> r.0 == s.(loading := false)
    ensures s.userId.Some? ==> r.1 == Some(ListRequest(s.userId.value, skip, limit)) && !r.0.loading
    ensures s.userId.Some? && reply.Listed? ==>
              r.0 == s.(loading := false, error := None, summaries := reply.items,
                        pagination := Pagination(reply.total, reply.skip, reply.limit))
    ensures s.userId.Some? && !reply.Listed? ==>
              r.0 == s.(loading := false, error := Some(ErrorLabel + CaughtMessage(v, reply)))
    ensures s.userId.Some? && !reply.Listed? ==>
              r.0.error.Some? && StartsWith(r.0.error.value, ErrorLabel)
              && r.0.summaries == s.summaries && r.0.pagination == s.pagination
  {
    match s.userId
    case None => if v == SavedPage then (s.(loading := false), None) else (s, None)
    case Some(u) =>
      var request := Some(ListRequest(u, skip, limit));
      match reply
      case Listed(items, total, sk, lim) =>
        (s.(loading := false, error := None, summaries := items, pagination := Pagination(total, sk, lim)), request)
      case _ =>
        (s.(loading := false, error := Some(ErrorLabel + CaughtMessage(v, reply))), request)
  }

  /** `changePage(newSkip)`: fetch from `newSkip` with the current page size. */
  function ChangePage(v: Variant, s: PageState, newSkip: int, reply: ListReply)
    : (r: (PageState, Option<ListRequest>))
    ensures s.userId.Some? ==> r.1 == Some(ListRequest(s.userId.value, newSkip, s.pagination.limit))
  {
    FetchSummaries(v, s, newSkip, s.pagination.limit, reply)
  }

  /** Fetching again with the same answer changes nothing further. */
  lemma FetchIsIdempotent(v: Variant, s: PageState, skip: int, limit: int, reply: ListReply)
    ensures var once := FetchSummaries(v, s, skip, limit, reply);
            FetchSummaries(v, once.0, skip, limit, reply) == once
  {
  }

  /**
   * After a page has been listed, "next" asks for the page that follows with
   * the same page size, and "previous" from there asks for the page listed.
   */
  lemma NextThenPrevious(v: Variant, s: PageState, items: seq<Item>, total: int, skip: int, limit: int,
                         reply: ListReply)
    requires s.userId.Some? && 0 <= skip && 0 <= limit
    ensures var listed := FetchSummaries(v, s, skip, limit, Listed(items, total, skip, limit)).0;
            var next := ChangePage(v, listed, NextSkip(listed.pagination), reply);
            && next.1 == Some(ListRequest(s.userId.value, skip + limit, limit))
            && (reply == Listed(items, total, skip + limit, limit) ==>
                  ChangePage(v, next.0, PreviousSkip(next.0.pagination), reply).1
                    == Some(ListRequest(s.userId.value, skip, limit)))
  {
  }

  /**
   * On the first page the controls are shown exactly when "next" has
   * somewhere to go; a list that fits on one page shows no controls, and
   * both buttons would be disabled anyway.
   */
  lemma PagerOnlyWithSecondPage(p: Pagination)
    requires WellFormed(p) && p.skip == 0
    ensures ShowsPager(p) <==> !NextDisabled(p)
    ensures !ShowsPager(p) ==> PreviousDisabled(p) && NextDisabled(p)
  {
  }

  /**
   * Before anything has been fetched the page shows no controls, and the
   * first fetch (with its default arguments 0 and 10) asks for the same page
   * a page change to offset 0 would ask for.
   */
  lemma InitialPaginationStartsAtFirstPage(v: Variant, s: PageState, reply: ListReply)
    requires s.pagination == InitialPagination
    ensures WellFormed(InitialPagination) && !ShowsPager(InitialPagination)
    ensures FetchSummaries(v, s, 0, 10, reply) == ChangePage(v, s, InitialPagination.skip, reply)
  {
  }
}

=== FILE: save.dfy ===
/**
 * POST /api/save and the `summaries` table it writes to.
 *
 * The table is a sequence of rows shaped like the `summaries` row type;
 * the id and creation time of a new row are chosen by the database and are
 * parameters here.
 */
module Save {
  import opened Wrappers
  import opened JsString
  import opened Environment
  import opened Http

  /** A row of the `summaries` table. */
  datatype Record = Record(
    id: string,
    createdAt: string,
    userId: string,
    originalText: string,
    summary: string,
    url: Option<string>)

  type Table = seq<Record>

  /**
   * What the insert comes to: success, the `error` the database answers
   * with, or a value thrown while creating the client or sending the insert.
   */
  datatype InsertResult = Inserted | InsertFailed(message: string) | InsertThrew(thrown: Thrown)

  const MissingFields: string := "テキスト、要約、ユーザーIDは必須です"
  const InsertFailurePrefix: string := "保存に失敗しました: "
  const ThrownPrefix: string := "保存中にエラーが発生しました: "
  const CredentialsNotSet: string := "Supabase credentials are not set"
  const UrlVar: string := "NEXT_PUBLIC_SUPABASE_URL"
  const ServiceKeyVar: string := "SUPABASE_SERVICE_ROLE_KEY"

  /** `url || null`: an empty or absent url is stored as null. */
  function StoredUrl(url: Option<string>): (r: Option<string>)
    ensures r.None? <==> !Truthy(url)
    ensures r.Some? ==> r == url
  {
    if Truthy(url) then url else None
  }

  /** The row a valid request inserts. */
  function NewRecord(fields: map<string, string>, id: string, createdAt: string): (row: Record)
    requires Truthy(Field(fields, "text")) && Truthy(Field(fields, "summary")) && Truthy(Field(fields, "user_id"))
    ensures row.id == id && row.createdAt == createdAt
    ensures row.originalText == fields["text"]
    ensures row.summary == fields["summary"]
    ensures row.userId == fields["user_id"]
    ensures row.url == StoredUrl(Field(fields, "url"))
    ensures row.originalText != "" && row.summary != "" && row.userId != ""
  {
    Record(id, createdAt, fields["user_id"], fields["text"], fields["summary"], StoredUrl(Field(fields, "url")))
  }

  /** The three required fields are present and non-empty. */
  predicate ValidSave(body: RequestBody) {
    Truthy(BodyField(body, "text")) && Truthy(BodyField(body, "summary")) && Truthy(BodyField(body, "user_id"))
  }

  /**
   * The handler: the answer and the table afterwards. A body that
   * `request.json()` cannot parse throws, and so ends in the catch-all 500.
   */
  function Post(body: RequestBody, env: Env, table: Table, db: InsertResult,
                id: string, createdAt: string): (r: (Response, Table))
    ensures body.Unparsable? ==>
              r == (Response(500, Detail(ThrownPrefix + body.reason)), table)
    // validation comes before the credential check
    ensures body.Json? && !ValidSave(body) ==> r == (Response(400, Detail(MissingFields)), table)
    ensures ValidSave(body) && !(IsSet(env, UrlVar) && IsSet(env, ServiceKeyVar)) ==>
              r == (Response(500, Detail(ThrownPrefix + CredentialsNotSet)), table)
    // the table grows by exactly one row iff the insert succeeded
    ensures r.0.status == 200 <==>
              ValidSave(body) && IsSet(env, UrlVar) && IsSet(env, ServiceKeyVar) && db.Inserted?
    ensures r.0.status == 200 ==>
              && r.0.payload == SaveSuccess
              && r.1 == table + [NewRecord(body.fields, id, createdAt)]
    ensures r.0.status != 200 ==> r.1 == table
    ensures ValidSave(body) && IsSet(env, UrlVar) && IsSet(env, ServiceKeyVar) && db.InsertFailed? ==>
              r.0 == Response(500, Detail(InsertFailurePrefix + db.message))
    // a throw while talking to the database reaches the catch-all
    ensures ValidSave(body) && IsSet(env, UrlVar) && IsSet(env, ServiceKeyVar) && db.InsertThrew? ==>
              r == (Response(500, Detail(ThrownPrefix + MessageText(db.thrown))), table)
  {
    match body
    case Unparsable(reason) => (Response(500, Detail(ThrownPrefix + reason)), table)
    case Json(fields) =>
      if !ValidSave(body) then (Response(400, Detail(MissingFields)), table)
      else if !(IsSet(env, UrlVar) && IsSet(env, ServiceKeyVar)) then
        (Response(500, Detail(ThrownPrefix + CredentialsNotSet)), table)
      else
        match db
        case InsertFailed(m) => (Response(500, Detail(InsertFailurePrefix + m)), table)
        case InsertThrew(t) => (Response(500, Detail(ThrownPrefix + MessageText(t))), table)
        case Inserted => (Response(200, SaveSuccess), table + [NewRecord(fields, id, createdAt)])
  }

  /** The row with id `id`, if the table holds one (the first such). */
  function FindById(table: Table, id: string): (r: Option<Record>)
    ensures r.None? <==> forall i :: 0 <= i < |table| ==> table[i].id != id
    ensures r.Some? ==> r.value in table && r.value.id == id
  {
    if |table| == 0 then None
    else if table[0].id == id then Some(table[0])
    else FindById(table[1..], id)
  }

  /**
   * Saving and then looking the new row up by its (fresh) id gives back the
   * request's text, summary, user and url (the url normalised to null when empty).
   */
  lemma {:induction false} SaveThenFind(fields: map<string, string>, env: Env, table: Table,
                                        id: string, createdAt: string)
    requires ValidSave(Json(fields)) && IsSet(env, UrlVar) && IsSet(env, ServiceKeyVar)
    requires forall i :: 0 <= i < |table| ==> table[i].id != id
    ensures var after := Post(Json(fields), env, table, Inserted, id, createdAt).1;
            var found := FindById(after, id);
            && found.Some?
            && found.value.originalText == fields["text"]
            && found.value.summary == fields["summary"]
            && found.value.userId == fields["user_id"]
            && found.value.url == StoredUrl(Field(fields, "url"))
  {
    var row := NewRecord(fields, id, createdAt);
    FindAppendFresh(table, row);
  }

  /** Looking up a fresh id in a table with one row appended finds that row. */
  lemma {:induction false} FindAppendFresh(table: Table, row: Record)
    requires forall i :: 0 <= i < |table| ==> table[i].id != row.id
    ensures FindById(table + [row], row.id) == Some(row)
    decreases |table|
  {
    if |table| > 0 {
      assert (table + [row])[0] == table[0];
      assert (table + [row])[1..] == table[1..] + [row];
      FindAppendFresh(table[1..], row);
    }
  }
}

=== FILE: summarize.dfy ===
/**
 * POST /api/summarize: Japanese summary with a model fallback.
 *
 * The body is parsed, `text` must be present and non-empty, and an OpenAI
 * key must be found under one of the four recognised names. The text is
 * cut to 4000 characters (plus a marker saying so) and sent to the primary
 * model; if that attempt fails in any way the same text is sent to the
 * fallback model, and if that fails too its error is reported. A summary of
 * a cut text carries a note saying only the first part was summarized.
 */
module Summarize {
  import opened Wrappers
  import opened JsString
  import opened Environment
  import opened Http
  import opened Upstream
  import Credentials

  const ParseFailed: string := "リクエストボディのJSONパースに失敗しました"
  const NoText: string := "テキストが指定されていません"
  const Marker: string := "...(テキストが長すぎるため、一部のみを要約しています)"
  const Note: string := "\n\n(注: 元のテキストが長すぎるため、最初の部分のみを要約しています)"
  const KeyMissingDetail: string := "OpenAI APIキーが設定されていません。環境変数を確認してください。"
  const FailurePrefix: string := "要約中にエラーが発生しました: "

  const PrimaryModel: string := "gpt-3.5-turbo-0125"
  const PrimaryPrompt: string := "以下の文章を内容を維持したまま、できるだけ詳しくわかりやすく要約してください。省略しすぎないようにしてください。"
  const FallbackModel: string := "gpt-3.5-turbo"
  const FallbackPrompt: string := "以下の文章を要約してください。簡潔にまとめてください。"

  /** The text sent upstream: the input itself, or its first 4000 characters and the marker. */
  function TruncateForModel(text: string): (sent: string)
    ensures |text| <= MaxChars ==> sent == text
    ensures |text| > MaxChars ==> sent == text[..MaxChars] + Marker
    ensures |sent| <= MaxChars + |Marker|
  {
    ClipWithSuffix(text, MaxChars, Marker)
  }

  /** The `detail` of a 500 answer, for an error with message `message`. */
  function ErrorDetail(message: string): (detail: string)
    ensures message == KeyNotSet <==> detail == KeyMissingDetail
    ensures message != KeyNotSet ==> detail == FailurePrefix + message
  {
    if message == KeyNotSet then KeyMissingDetail
    else
      assert (FailurePrefix + message)[0] != KeyMissingDetail[0];
      FailurePrefix + message
  }

  /**
   * The handler, given what the primary and the fallback call would return.
   */
  function Post(body: RequestBody, env: Env, primary: FetchResult, fallback: FetchResult): (r: Outcome)
    // validation: parse failure and missing text are the only 400s, and call nothing
    ensures body.Unparsable? ==> r == Outcome(Response(400, Detail(ParseFailed)), [])
    ensures body.Json? && !Truthy(BodyField(body, "text")) ==> r == Outcome(Response(400, Detail(NoText)), [])
    ensures r.response.status == 400 <==> !Truthy(BodyField(body, "text"))
    // the key is looked up only after validation; without it nothing is called
    ensures Truthy(BodyField(body, "text")) && Credentials.ApiKey(env).None? ==>
              r == Outcome(Response(500, Detail(KeyMissingDetail)), [])
    // a valid request with a key found always reaches the model
    ensures r.calls != [] <==> Truthy(BodyField(body, "text")) && Credentials.ApiKey(env).Some?
    // every call carries the (possibly cut) text; the primary goes first, the fallback only after it failed
    ensures forall i :: 0 <= i < |r.calls| ==>
              (Truthy(BodyField(body, "text")) && r.calls[i].user == TruncateForModel(BodyField(body, "text").value))
    ensures |r.calls| >= 1 ==> r.calls[0] == Call(ViaFetch, PrimaryModel, PrimaryPrompt, r.calls[0].user)
    ensures |r.calls| <= 2
    ensures |r.calls| == 2 <==> |r.calls| >= 1 && !primary.Completed?
    ensures |r.calls| == 2 ==> r.calls[1] == Call(ViaFetch, FallbackModel, FallbackPrompt, r.calls[0].user)
    // success: the content of the call that succeeded, with the note iff the text was cut
    ensures r.response.status == 200 <==>
              |r.calls| >= 1 && (primary.Completed? || fallback.Completed?)
    ensures r.response.status == 200 ==>
              var content := if primary.Completed? then primary.content else fallback.content;
              r.response.payload == SummaryBody(WithNote(content, BodyField(body, "text").value, Note))
    // failure after validation is a 500, and a double failure reports the fallback's error
    ensures r.response.status in {200, 400, 500}
    ensures |r.calls| == 2 && !fallback.Completed? ==>
              r.response == Response(500, Detail(ErrorDetail(FetchErrorMessage(fallback))))
  {
    match body
    case Unparsable(_) => Outcome(Response(400, Detail(ParseFailed)), [])
    case Json(fields) =>
      var text := Field(fields, "text");
      if !Truthy(text) then Outcome(Response(400, Detail(NoText)), [])
      else
        var sent := TruncateForModel(text.value);
        match Credentials.ApiKey(env)
        case None => Outcome(Response(500, Detail(ErrorDetail(KeyNotSet))), [])
        case Some(_) =>
          var first := Call(ViaFetch, PrimaryModel, PrimaryPrompt, sent);
          var second := Call(ViaFetch, FallbackModel, FallbackPrompt, sent);
          if primary.Completed? then
            Outcome(Response(200, SummaryBody(WithNote(primary.content, text.value, Note))), [first])
          else if fallback.Completed? then
            Outcome(Response(200, SummaryBody(WithNote(fallback.content, text.value, Note))), [first, second])
          else
            Outcome(Response(500, Detail(ErrorDetail(FetchErrorMessage(fallback)))), [first, second])
  }

  /**
   * The fallback's own failure is surfaced as the generic error, never as the
   * missing-key message: a non-ok response is told apart from a missing key.
   */
  lemma UpstreamFailureIsNotKeyMissing(body: RequestBody, env: Env, primary: FetchResult,
                                       status: nat, text: string)
    requires Truthy(BodyField(body, "text")) && Credentials.ApiKey(env).Some? && !primary.Completed?
    ensures var r := Post(body, env, primary, HttpFailure(status, text));
            r.response.status == 500
            && r.response.payload.Detail?
            && r.response.payload.detail != KeyMissingDetail
            && StartsWith(r.response.payload.detail, FailurePrefix + ErrorPrefix)
  {
    HttpFailureIsNotKeyNotSet(status, text);
    var m := FetchErrorMessage(HttpFailure(status, text));
    var d := FailurePrefix + m;
    assert d[..|FailurePrefix + ErrorPrefix|] == FailurePrefix + m[..|ErrorPrefix|];
  }
}

=== FILE: summarize_direct.dfy ===
/**
 * POST /api/summarize/direct: Japanese summary through a single raw `fetch`.
 *
 * Validation runs in the order parse, text, key; the key is read from
 * OPENAI_API_KEY only. There is no fallback model and no note is appended
 * to the summary, although the text sent is cut exactly as in the main
 * summarize route.
 */
module SummarizeDirect {
  import opened Wrappers
  import opened JsString
  import opened Environment
  import opened Http
  import opened Upstream
  import Summarize
  import Credentials

  const KeyMissingDetail: string := "OpenAI APIキーが設定されていません"
  const Model: string := "gpt-3.5-turbo"

  /** The only variable this route reads the key from. */
  const KeyName: string := "OPENAI_API_KEY"

  /** The handler, given what the fetch would return. */
  function Post(body: RequestBody, env: Env, result: FetchResult): (r: Outcome)
    ensures body.Unparsable? ==> r == Outcome(Response(400, Detail(Summarize.ParseFailed)), [])
    ensures body.Json? && !Truthy(BodyField(body, "text")) ==>
              r == Outcome(Response(400, Detail(Summarize.NoText)), [])
    ensures r.response.status == 400 <==> !Truthy(BodyField(body, "text"))
    ensures Truthy(BodyField(body, "text")) && !IsSet(env, KeyName) ==>
              r == Outcome(Response(500, Detail(KeyMissingDetail)), [])
    ensures r.calls != [] <==> Truthy(BodyField(body, "text")) && IsSet(env, KeyName)
    ensures r.calls != [] ==>
              r.calls == [Call(ViaFetch, Model, Summarize.FallbackPrompt,
                               Summarize.TruncateForModel(BodyField(body, "text").value))]
    // the content is returned as it came, without the truncation note
    ensures r.response.status == 200 <==> r.calls != [] && result.Completed?
    ensures r.response.status == 200 ==> r.response.payload == SummaryBody(result.content)
    ensures r.calls != [] && !result.Completed? ==>
              r.response == Response(500, Detail(Summarize.FailurePrefix + FetchErrorMessage(result)))
  {
    match body
    case Unparsable(_) => Outcome(Response(400, Detail(Summarize.ParseFailed)), [])
    case Json(fields) =>
      var text := Field(fields, "text");
      if !Truthy(text) then Outcome(Response(400, Detail(Summarize.NoText)), [])
      else if !IsSet(env, KeyName) then Outcome(Response(500, Detail(KeyMissingDetail)), [])
      else
        var call := Call(ViaFetch, Model, Summarize.FallbackPrompt, Summarize.TruncateForModel(text.value));
        match result
        case Completed(content) => Outcome(Response(200, SummaryBody(content)), [call])
        case _ => Outcome(Response(500, Detail(Summarize.FailurePrefix + FetchErrorMessage(result))), [call])
  }

  /**
   * A non-ok upstream answer is reported with its status code and status
   * text: `要約中にエラーが発生しました: OpenAI API error: <status> <statusText>`.
   */
  lemma UpstreamStatusReported(body: RequestBody, env: Env, status: nat, statusText: string)
    requires Truthy(BodyField(body, "text")) && IsSet(env, KeyName)
    ensures Post(body, env, HttpFailure(status, statusText)).response
         == Response(500, Detail(Summarize.FailurePrefix + ErrorPrefix + NatToString(status) + " " + statusText))
  {
    var m := FetchErrorMessage(HttpFailure(status, statusText));
    assert Summarize.FailurePrefix + m
        == Summarize.FailurePrefix + ErrorPrefix + NatToString(status) + " " + statusText;
  }

  /**
   * The direct route's single request is exactly the request the main
   * summarize route falls back to, and both answer with the same content
   * when the text needed no cutting.
   */
  lemma DirectCallIsSummarizeFallback(fields: map<string, string>, env: Env, primary: FetchResult,
                                      result: FetchResult)
    requires Truthy(Field(fields, "text")) && IsSet(env, KeyName) && !primary.Completed?
    ensures var d := Post(Json(fields), env, result);
            var s := Summarize.Post(Json(fields), env, primary, result);
            && d.calls == [s.calls[1]]
            && (|fields["text"]| <= MaxChars ==> d.response == s.response || !result.Completed?)
  {
    Credentials.ApiKeyCascade(env);
  }
}

=== FILE: summarize_english.dfy ===
/**
 * POST /api/summarize_english: English summary through the OpenAI client.
 *
 * Unlike the Japanese route it parses the body with `request.json()`, so an
 * unparsable body ends in the catch-all 500 rather than a 400; it consults
 * OPENAI_API_KEY only; and it has no fallback model.
 */
module SummarizeEnglish {
  import opened Wrappers
  import opened JsString
  import opened Environment
  import opened Http
  import opened Upstream
  import Credentials
  import Summarize

  const NoText: string := "テキストが指定されていません"
  const Marker: string := "...(Text is too long, only summarizing the first part)"
  const Note: string := "\n\n(Note: The original text was too long, only the first part was summarized)"
  const KeyMissingDetail: string := KeyNotSet + ". Please check your environment variables."
  const FailurePrefix: string := "Error during summarization: "

  const Model: string := "gpt-3.5-turbo-0125"
  const Prompt: string := "Please summarize the following text in English. Be concise."

  /** The only variable this route reads the key from. */
  const KeyName: string := "OPENAI_API_KEY"

  /** The text sent upstream: the input, or its first 4000 characters and the English marker. */
  function TruncateForModel(text: string): (sent: string)
    ensures |text| <= MaxChars ==> sent == text
    ensures |text| > MaxChars ==> sent == text[..MaxChars] + Marker
  {
    ClipWithSuffix(text, MaxChars, Marker)
  }

  /** The `detail` of the catch-all 500 for an error with message `message`. */
  function ErrorDetail(message: string): (detail: string)
    ensures message == KeyNotSet <==> detail == KeyMissingDetail
    ensures message != KeyNotSet ==> detail == FailurePrefix + message
  {
    if message == KeyNotSet then KeyMissingDetail
    else
      assert FailurePrefix[0] == 'E' && KeyNotSet[0] == 'O';
      assert (FailurePrefix + message)[0] != KeyMissingDetail[0];
      FailurePrefix + message
  }

  /** The handler, given what the client call would return. */
  function Post(body: RequestBody, env: Env, result: ClientResult): (r: Outcome)
    // a parse failure is thrown and reported as a 500, never as a 400
    ensures body.Unparsable? ==> r == Outcome(Response(500, Detail(ErrorDetail(body.reason))), [])
    ensures r.response.status == 400 <==> body.Json? && !Truthy(BodyField(body, "text"))
    ensures r.response.status == 400 ==> r.response.payload == Detail(NoText)
    // only OPENAI_API_KEY is consulted
    ensures Truthy(BodyField(body, "text")) && !IsSet(env, KeyName) ==>
              r == Outcome(Response(500, Detail(KeyMissingDetail)), [])
    ensures r.calls != [] <==> Truthy(BodyField(body, "text")) && IsSet(env, KeyName)
    ensures r.calls != [] ==>
              r.calls == [Call(ViaClient, Model, Prompt, TruncateForModel(BodyField(body, "text").value))]
    ensures r.response.status == 200 <==> r.calls != [] && result.Answered?
    ensures r.response.status == 200 ==>
              r.response.payload == SummaryBody(WithNote(result.answer, BodyField(body, "text").value, Note))
    ensures r.calls != [] && result.ClientFailure? ==>
              r.response == Response(500, Detail(ErrorDetail(result.failure)))
  {
    match body
    case Unparsable(reason) => Outcome(Response(500, Detail(ErrorDetail(reason))), [])
    case Json(fields) =>
      var text := Field(fields, "text");
      if !Truthy(text) then Outcome(Response(400, Detail(NoText)), [])
      else if !IsSet(env, KeyName) then Outcome(Response(500, Detail(ErrorDetail(KeyNotSet))), [])
      else
        var call := Call(ViaClient, Model, Prompt, TruncateForModel(text.value));
        match result
        case Answered(content) => Outcome(Response(200, SummaryBody(WithNote(content, text.value, Note))), [call])
        case ClientFailure(m) => Outcome(Response(500, Detail(ErrorDetail(m))), [call])
  }

  /**
   * The English route reads only OPENAI_API_KEY, so a key configured under
   * one of the other recognised names serves the Japanese route but leaves
   * the English one reporting a missing key.
   */
  lemma OnlyPrimaryKeyName(fields: map<string, string>, env: Env, result: ClientResult,
                           primary: FetchResult, fallback: FetchResult)
    requires Truthy(Field(fields, "text"))
    requires !IsSet(env, KeyName) && IsSet(env, "NEXT_PUBLIC_OPENAI_API_KEY")
    ensures Post(Json(fields), env, result) == Outcome(Response(500, Detail(KeyMissingDetail)), [])
    ensures Summarize.Post(Json(fields), env, primary, fallback).calls != []
  {
    Credentials.ApiKeyCascade(env);
  }
}

=== FILE: translate.dfy ===
/**
 * POST /api/translate: translation into Japanese or English.
 *
 * After validating `text` and `targetLang`, the route first tries a raw
 * `fetch` and, if that throws for any reason (including a missing key),
 * tries again through the OpenAI client. Both attempts send the text
 * unchanged with the same language-dependent system prompt.
 */
module Translate {
  import opened Wrappers
  import opened JsString
  import opened Environment
  import opened Http
  import opened Upstream
  import Credentials
  import Summarize

  const BadLanguage: string := "対象言語は'ja'または'en'を指定してください"
  const FailurePrefix: string := "翻訳中にエラーが発生しました: "
  const Model: string := "gpt-3.5-turbo"
  const JapanesePrompt: string := "以下の文章を日本語に翻訳してください。"
  const EnglishPrompt: string := "Please translate the following text into English."

  /** `targetLang` is exactly "ja" or "en". */
  predicate SupportedLanguage(lang: Option<string>) {
    Truthy(lang) && (lang.value == "ja" || lang.value == "en")
  }

  /** The system prompt for a target language: Japanese for "ja", English for anything else. */
  function SystemPrompt(lang: string): (p: string)
    ensures p == JapanesePrompt <==> lang == "ja"
    ensures p == EnglishPrompt <==> lang != "ja"
  {
    if lang == "ja" then JapanesePrompt else EnglishPrompt
  }

  /** The handler, given what the fetch attempt and the client attempt would return. */
  function Post(body: RequestBody, env: Env, fetched: FetchResult, client: ClientResult): (r: Outcome)
    ensures body.Unparsable? ==> r == Outcome(Response(400, Detail(Summarize.ParseFailed)), [])
    ensures body.Json? && !Truthy(BodyField(body, "text")) ==>
              r == Outcome(Response(400, Detail(Summarize.NoText)), [])
    // the language is checked after the text and before any call
    ensures Truthy(BodyField(body, "text")) && !SupportedLanguage(BodyField(body, "targetLang")) ==>
              r == Outcome(Response(400, Detail(BadLanguage)), [])
    ensures r.response.status == 400 <==>
              !Truthy(BodyField(body, "text")) || !SupportedLanguage(BodyField(body, "targetLang"))
    // a valid request with a key found always reaches the model
    ensures r.calls != [] <==>
              Truthy(BodyField(body, "text")) && SupportedLanguage(BodyField(body, "targetLang"))
              && Credentials.ApiKey(env).Some?
    // every call sends the text unchanged, with the prompt of the requested language
    ensures forall i :: 0 <= i < |r.calls| ==>
              (Truthy(BodyField(body, "text")) && SupportedLanguage(BodyField(body, "targetLang"))
               && r.calls[i].model == Model
               && r.calls[i].user == BodyField(body, "text").value
               && r.calls[i].system == SystemPrompt(BodyField(body, "targetLang").value))
    // the client is tried iff the fetch attempt threw
    ensures |r.calls| <= 2
    ensures |r.calls| >= 1 ==> r.calls[0].via == ViaFetch
    ensures |r.calls| == 2 <==> |r.calls| >= 1 && !fetched.Completed?
    ensures |r.calls| == 2 ==> r.calls[1].via == ViaClient
    ensures r.response.status == 200 <==>
              |r.calls| >= 1 && (fetched.Completed? || client.Answered?)
    ensures r.response.status == 200 ==>
              r.response.payload
                == TranslationBody(if fetched.Completed? then fetched.content else client.answer)
    // without a key both attempts throw the missing-key error and nothing is called
    ensures r.response.status != 400 && Credentials.ApiKey(env).None? ==>
              r == Outcome(Response(500, Detail(FailurePrefix + KeyNotSet)), [])
    ensures |r.calls| == 2 && client.ClientFailure? ==>
              r.response == Response(500, Detail(FailurePrefix + client.failure))
  {
    match body
    case Unparsable(_) => Outcome(Response(400, Detail(Summarize.ParseFailed)), [])
    case Json(fields) =>
      var text := Field(fields, "text");
      var lang := Field(fields, "targetLang");
      if !Truthy(text) then Outcome(Response(400, Detail(Summarize.NoText)), [])
      else if !SupportedLanguage(lang) then Outcome(Response(400, Detail(BadLanguage)), [])
      else
        var prompt := SystemPrompt(lang.value);
        match Credentials.ApiKey(env)
        // translateWithFetch throws before fetching; getOpenAIClient throws the same error
        case None => Outcome(Response(500, Detail(FailurePrefix + KeyNotSet)), [])
        case Some(_) =>
          var viaFetch := Call(ViaFetch, Model, prompt, text.value);
          var viaClient := Call(ViaClient, Model, prompt, text.value);
          if fetched.Completed? then
            Outcome(Response(200, TranslationBody(fetched.content)), [viaFetch])
          else
            match client
            case Answered(t) => Outcome(Response(200, TranslationBody(t)), [viaFetch, viaClient])
            case ClientFailure(m) => Outcome(Response(500, Detail(FailurePrefix + m)), [viaFetch, viaClient])
  }

  /**
   * Translation and the main summarize route read the key the same way: for
   * a request both accept, one calls the model exactly when the other does.
   * Unlike summarizing, translating sends a long text uncut.
   */
  lemma SameKeyLookupAsSummarize(fields: map<string, string>, env: Env, fetched: FetchResult,
                                 client: ClientResult, primary: FetchResult, fallback: FetchResult)
    requires Truthy(Field(fields, "text")) && SupportedLanguage(Field(fields, "targetLang"))
    ensures var t := Post(Json(fields), env, fetched, client);
            var s := Summarize.Post(Json(fields), env, primary, fallback);
            && (t.calls == [] <==> s.calls == [])
            && (t.calls != [] && |fields["text"]| > MaxChars ==>
                  t.calls[0].user == fields["text"]
                  && s.calls[0].user == fields["text"][..MaxChars] + Summarize.Marker)
  {
  }
}

=== FILE: upstream.dfy ===
/**
 * The chat-completion service as the routes see it. A route never observes
 * anything but the outcome of a call, so each outcome is a parameter of the
 * route's model, and each route reports the calls it made, in order.
 */
module Upstream {
  import opened JsString
  import opened Http

  /** Raw `fetch` to the completions endpoint, or the OpenAI client library. */
  datatype Channel = ViaFetch | ViaClient

  /** One completion request: the model and the system and user messages. */
  datatype Call = Call(via: Channel, model: string, system: string, user: string)

  /**
   * What a `fetch` to the completions endpoint comes to: a completed answer,
   * a response whose `ok` is false, or a rejected promise (network failure,
   * unreadable JSON) with its message.
   */
  datatype FetchResult =
    | Completed(content: string)
    | HttpFailure(status: nat, statusText: string)
    | NetworkFailure(message: string)

  /** What a call through the OpenAI client library comes to. */
  datatype ClientResult = Answered(answer: string) | ClientFailure(failure: string)

  /** A route's answer together with the completion calls it made, in order. */
  datatype Outcome = Outcome(response: Response, calls: seq<Call>)

  /** The message thrown when no OpenAI key is configured. */
  const KeyNotSet: string := "OpenAI API key is not set"

  /** The summarize routes cut their input at this many characters (translation sends it uncut). */
  const MaxChars: nat := 4000

  const ErrorPrefix: string := "OpenAI API error: "

  /** The summary returned for `text`: the model's content, with `note` appended iff `text` was cut. */
  function WithNote(content: string, text: string, note: string): (summary: string)
    ensures |text| > MaxChars ==> summary == content + note
    ensures |text| <= MaxChars ==> summary == content
  {
    if |text| > MaxChars then content + note else content
  }

  /**
   * The message of the error a failed fetch throws: for a non-ok response
   * `OpenAI API error: ${status} ${statusText}`, otherwise the rejection's own.
   */
  function FetchErrorMessage(r: FetchResult): (m: string)
    requires !r.Completed?
    ensures r.HttpFailure? ==> StartsWith(m, ErrorPrefix)
    ensures r.NetworkFailure? ==> m == r.message
  {
    match r
    case HttpFailure(status, text) => ErrorPrefix + NatToString(status) + " " + text
    case NetworkFailure(m) => m
  }

  /** The status code can be read back out of the message, after the fixed prefix. */
  lemma FetchErrorMessageCarriesStatus(status: nat, text: string)
    ensures var m := FetchErrorMessage(HttpFailure(status, text));
            var digits := NatToString(status);
            m[|ErrorPrefix|..|ErrorPrefix| + |digits|] == digits
            && m[|ErrorPrefix| + |digits|] == ' '
            && DecimalValue(m[|ErrorPrefix|..|ErrorPrefix| + |digits|]) == status
  {
    var m := FetchErrorMessage(HttpFailure(status, text));
    var digits := NatToString(status);
    assert m == ErrorPrefix + digits + " " + text;
    assert m[|ErrorPrefix|..|ErrorPrefix| + |digits|] == digits;
    DecimalRoundTrip(status);
  }

  /**
   * A non-ok response is never reported with the missing-key message, so a
   * route that singles out that message cannot mistake the one for the other.
   */
  lemma HttpFailureIsNotKeyNotSet(status: nat, text: string)
    ensures FetchErrorMessage(HttpFailure(status, text)) != KeyNotSet
  {
    var m := FetchErrorMessage(HttpFailure(status, text));
    assert m[11] == 'e';
    assert KeyNotSet[11] == 'k';
  }

  /**
   * The message of a non-ok response identifies it: two failures reported
   * with the same message had the same status and the same status text.
   */
  lemma FetchErrorMessageIdentifiesFailure(s1: nat, t1: string, s2: nat, t2: string)
    requires FetchErrorMessage(HttpFailure(s1, t1)) == FetchErrorMessage(HttpFailure(s2, t2))
    ensures s1 == s2 && t1 == t2
  {
    var m := FetchErrorMessage(HttpFailure(s1, t1));
    var d1, d2 := NatToString(s1), NatToString(s2);
    var p := |ErrorPrefix|;
    assert m == ErrorPrefix + d1 + " " + t1;
    assert m == ErrorPrefix + d2 + " " + t2;
    // each rendering is exactly the run of digits that follows the prefix
    assert m[p..] == d1 + " " + t1 == d2 + " " + t2;
    LeadingDigitsEndAtSpace(d1, t1);
    LeadingDigitsEndAtSpace(d2, t2);
    assert d1 == m[p..p + |d1|] == d2;
    NatToStringInjective(s1, s2);
    assert t1 == m[p + |d1| + 1..] == t2;
  }
}

=== FILE: uri_component.dfy ===
/**
 * `encodeURIComponent`, as the OAuth callback uses it to put an exception
 * message into the `error` query parameter, and the login page's reading of
 * that parameter back (`URLSearchParams.get`).
 *
 * A character outside the unreserved set is written as the UTF-8 bytes of
 * its code point, each as `%` and two upper-case hex digits. Dafny's `char`
 * is a Unicode scalar value, so the lone-surrogate error of the JavaScript
 * function cannot arise here.
 */
module UriComponent {
  import opened Wrappers

  /** The characters `encodeURIComponent` leaves as they are. */
  predicate Unreserved(c: char) {
    || ('A' <= c <= 'Z') || ('a' <= c <= 'z') || ('0' <= c <= '9')
    || c == '-' || c == '_' || c == '.' || c == '!' || c == '~'
    || c == '*' || c == '\'' || c == '(' || c == ')'
  }

  predicate IsUpperHex(c: char) {
    ('0' <= c <= '9') || ('A' <= c <= 'F')
  }

  function HexDigit(d: nat): (c: char)
    requires d < 16
    ensures IsUpperHex(c)
  {
    if d < 10 then (('0' as int) + d) as char else (('A' as int) + d - 10) as char
  }

  /** The value of a hex digit of either case. */
  function HexValue(c: char): (r: Option<nat>)
    ensures r.Some? ==> r.value < 16
  {
    if '0' <= c <= '9' then Some((c as int) - ('0' as int))
    else if 'A' <= c <= 'F' then Some((c as int) - ('A' as int) + 10)
    else if 'a' <= c <= 'f' then Some((c as int) - ('a' as int) + 10)
    else None
  }

  lemma HexRoundTrip(d: nat)
    requires d < 16
    ensures HexValue(HexDigit(d)) == Some(d)
  {
  }

  /** A byte as `%` and two upper-case hex digits. */
  function PercentByte(b: nat): (r: string)
    requires b < 256
    ensures |r| == 3 && r[0] == '%' && IsUpperHex(r[1]) && IsUpperHex(r[2])
  {
    ['%', HexDigit(b / 16), HexDigit(b % 16)]
  }

  /** The UTF-8 encoding of a scalar value (one to four bytes). */
  function Utf8(cp: nat): (bytes: seq<nat>)
    requires cp < 0x11_0000
    ensures 1 <= |bytes| <= 4
    ensures forall i :: 0 <= i < |bytes| ==> bytes[i] < 256
  {
    if cp < 0x80 then [cp]
    else if cp < 0x800 then [0xC0 + cp / 64, 0x80 + cp % 64]
    else if cp < 0x1_0000 then [0xE0 + cp / 4096, 0x80 + (cp / 64) % 64, 0x80 + cp % 64]
    else [0xF0 + cp / 262144, 0x80 + (cp / 4096) % 64, 0x80 + (cp / 64) % 64, 0x80 + cp % 64]
  }

  function PercentBytes(bytes: seq<nat>): (r: string)
    requires forall i :: 0 <= i < |bytes| ==> bytes[i] < 256
    ensures |r| == 3 * |bytes|
    ensures forall i :: 0 <= i < |r| ==> r[i] == '%' || IsUpperHex(r[i])
  {
    if |bytes| == 0 then [] else PercentByte(bytes[0]) + PercentBytes(bytes[1..])
  }

  /** One character, encoded. */
  function EncodeChar(c: char): (r: string)
    ensures Unreserved(c) ==> r == [c]
    ensures !Unreserved(c) ==> 3 <= |r| <= 12 && r[0] == '%'
    ensures forall i :: 0 <= i < |r| ==> Unreserved(r[i]) || r[i] == '%' || IsUpperHex(r[i])
  {
    if Unreserved(c) then [c] else PercentBytes(Utf8(c as int))
  }

  /**
   * `encodeURIComponent(s)`: its output is made only of unreserved
   * characters, `%` and hex digits.
   */
  function Encode(s: string): (r: string)
    ensures |r| >= |s|
    ensures forall i :: 0 <= i < |r| ==> Unreserved(r[i]) || r[i] == '%' || IsUpperHex(r[i])
  {
    if |s| == 0 then [] else EncodeChar(s[0]) + Encode(s[1..])
  }

  /**
   * An encoded value cannot end its query parameter early or start another:
   * it contains no `&`, `=`, `#`, `+`, `?` or space.
   */
  lemma EncodedIsOneQueryValue(s: string)
    ensures forall i :: 0 <= i < |Encode(s)| ==>
              Encode(s)[i] !in {'&', '=', '#', '+', '?', ' '}
  {
  }

  // ---------------------------------------------------------------------
  // Decoding

  /** The byte written as `%XY` at position `i` of `s`, if there is one. */
  function PercentByteAt(s: string, i: nat): (r: Option<nat>)
    ensures r.Some? ==> i + 3 <= |s| && r.value < 256
  {
    if i + 3 <= |s| && s[i] == '%' && HexValue(s[i + 1]).Some? && HexValue(s[i + 2]).Some?
    then Some(HexValue(s[i + 1]).value * 16 + HexValue(s[i + 2]).value)
    else None
  }

  /** The six payload bits of a UTF-8 continuation byte written at position `i`. */
  function ContinuationAt(s: string, i: nat): (r: Option<nat>)
    ensures r.Some? ==> i + 3 <= |s| && r.value < 64
  {
    match PercentByteAt(s, i)
    case Some(b) => if 0x80 <= b < 0xC0 then Some(b - 0x80) else None
    case None => None
  }

  /** A scalar value, as a character. */
  predicate IsScalar(cp: int) {
    (0 <= cp < 0xD800) || (0xE000 <= cp < 0x11_0000)
  }

  /**
   * The first character written at the start of `s`, and how many input
   * characters it took: `+` stands for a space, `%` starts a UTF-8 escape;
   * `None` on a malformed escape.
   */
  function DecodeUnit(s: string): (r: Option<(char, nat)>)
    requires |s| > 0
    ensures r.Some? ==> 0 < r.value.1 <= |s|
  {
    if s[0] == '+' then Some((' ', 1))
    else if s[0] != '%' then Some((s[0], 1))
    else
      match PercentByteAt(s, 0)
      case None => None
      case Some(b0) =>
        if b0 < 0x80 then Some((b0 as char, 3))
        else if 0xC2 <= b0 < 0xE0 then
          match ContinuationAt(s, 3)
          case None => None
          case Some(c1) => Some((((b0 - 0xC0) * 64 + c1) as char, 6))
        else if 0xE0 <= b0 < 0xF0 then
          match (ContinuationAt(s, 3), ContinuationAt(s, 6))
          case (Some(c1), Some(c2)) =>
            var cp := (b0 - 0xE0) * 4096 + c1 * 64 + c2;
            if 0x800 <= cp && IsScalar(cp) then Some((cp as char, 9)) else None
          case _ => None
        else if 0xF0 <= b0 < 0xF5 then
          match (ContinuationAt(s, 3), ContinuationAt(s, 6), ContinuationAt(s, 9))
          case (Some(c1), Some(c2), Some(c3)) =>
            var cp := (b0 - 0xF0) * 262144 + c1 * 4096 + c2 * 64 + c3;
            if 0x1_0000 <= cp < 0x11_0000 then Some((cp as char, 12)) else None
          case _ => None
        else None
  }

  /**
   * One query value as the login page reads it with `searchParams.get`:
   * `+` becomes a space and `%XY` escapes are read as UTF-8. `None` stands
   * for a malformed escape (see the README on how the browser differs).
   */
  function Decode(s: string): (r: Option<string>)
    // decoding never lengthens the text
    ensures r.Some? ==> |r.value| <= |s|
    // text without escapes reads back as itself, each `+` as a space
    ensures (forall i :: 0 <= i < |s| ==> s[i] != '%') ==>
              r.Some? && |r.value| == |s|
              && forall i :: 0 <= i < |s| ==> r.value[i] == (if s[i] == '+' then ' ' else s[i])
    decreases |s|
  {
    if |s| == 0 then Some([])
    else
      match DecodeUnit(s)
      case None => None
      case Some((c, n)) =>
        match Decode(s[n..])
        case None => None
        case Some(rest) => Some([c] + rest)
  }

  /** Reading back one encoded character, whatever follows it. */
  lemma DecodeEncodedChar(c: char, rest: string)
    ensures DecodeUnit(EncodeChar(c) + rest) == Some((c, |EncodeChar(c)|))
  {
    var s := EncodeChar(c) + rest;
    if !Unreserved(c) {
      var cp := c as int;
      var bytes := Utf8(cp);
      assert s == PercentBytes(bytes) + rest;
      PercentBytesAt(bytes, rest);
      assert PercentByteAt(s, 0) == Some(bytes[0]);
      if cp < 0x80 {
        DecodeOneByte(s, c);
      } else if cp < 0x800 {
        assert PercentByteAt(s, 3) == Some(bytes[1]);
        DecodeTwoBytes(s, c);
      } else if cp < 0x1_0000 {
        assert PercentByteAt(s, 3) == Some(bytes[1]);
        assert PercentByteAt(s, 6) == Some(bytes[2]);
        DecodeThreeBytes(s, c);
      } else {
        assert PercentByteAt(s, 3) == Some(bytes[1]);
        assert PercentByteAt(s, 6) == Some(bytes[2]);
        assert PercentByteAt(s, 9) == Some(bytes[3]);
        DecodeFourBytes(s, c);
      }
    }
  }

  lemma DecodeOneByte(s: string, c: char)
    requires c as int < 0x80
    requires |s| > 0 && PercentByteAt(s, 0) == Some(c as int)
    ensures DecodeUnit(s) == Some((c, 3))
  {
  }

  lemma DecodeTwoBytes(s: string, c: char)
    requires 0x80 <= c as int < 0x800
    requires |s| > 0 && PercentByteAt(s, 0) == Some(0xC0 + (c as int) / 64)
    requires PercentByteAt(s, 3) == Some(0x80 + (c as int) % 64)
    ensures DecodeUnit(s) == Some((c, 6))
  {
    var cp := c as int;
    assert ContinuationAt(s, 3) == Some(cp % 64);
    assert (cp / 64) * 64 + cp % 64 == cp;
  }

  lemma DecodeThreeBytes(s: string, c: char)
    requires 0x800 <= c as int < 0x1_0000
    requires |s| > 0 && PercentByteAt(s, 0) == Some(0xE0 + (c as int) / 4096)
    requires PercentByteAt(s, 3) == Some(0x80 + ((c as int) / 64) % 64)
    requires PercentByteAt(s, 6) == Some(0x80 + (c as int) % 64)
    ensures DecodeUnit(s) == Some((c, 9))
  {
    var cp := c as int;
    assert ContinuationAt(s, 3) == Some((cp / 64) % 64);
    assert ContinuationAt(s, 6) == Some(cp % 64);
    Split3(cp);
  }

  lemma DecodeFourBytes(s: string, c: char)
    requires 0x1_0000 <= c as int
    requires |s| > 0 && PercentByteAt(s, 0) == Some(0xF0 + (c as int) / 262144)
    requires PercentByteAt(s, 3) == Some(0x80 + ((c as int) / 4096) % 64)
    requires PercentByteAt(s, 6) == Some(0x80 + ((c as int) / 64) % 64)
    requires PercentByteAt(s, 9) == Some(0x80 + (c as int) % 64)
    ensures DecodeUnit(s) == Some((c, 12))
  {
    var cp := c as int;
    assert ContinuationAt(s, 3) == Some((cp / 4096) % 64);
    assert ContinuationAt(s, 6) == Some((cp / 64) % 64);
    assert ContinuationAt(s, 9) == Some(cp % 64);
    Split4(cp);
  }

  /** A code point below 2^16 is its three 4/6/6-bit groups. */
  lemma Split3(cp: nat)
    ensures (cp / 4096) * 4096 + ((cp / 64) % 64) * 64 + cp % 64 == cp
  {
    assert cp == (cp / 64) * 64 + cp % 64;
    assert cp / 64 == ((cp / 64) / 64) * 64 + (cp / 64) % 64;
    assert (cp / 64) / 64 == cp / 4096;
  }

  /** A code point is its four 3/6/6/6-bit groups. */
  lemma Split4(cp: nat)
    ensures (cp / 262144) * 262144 + ((cp / 4096) % 64) * 4096 + ((cp / 64) % 64) * 64 + cp % 64 == cp
  {
    Split3(cp);
    assert cp / 4096 == ((cp / 4096) / 64) * 64 + (cp / 4096) % 64;
    assert (cp / 4096) / 64 == cp / 262144;
  }

  /** Each byte of a percent-encoded sequence is read back at its position. */
  lemma PercentBytesAt(bytes: seq<nat>, rest: string)
    requires forall i :: 0 <= i < |bytes| ==> bytes[i] < 256
    ensures forall k :: 0 <= k < |bytes| ==> PercentByteAt(PercentBytes(bytes) + rest, 3 * k) == Some(bytes[k])
  {
    forall k | 0 <= k < |bytes|
      ensures PercentByteAt(PercentBytes(bytes) + rest, 3 * k) == Some(bytes[k])
    {
      PercentByteIndexed(bytes, k, rest);
    }
  }

  lemma {:induction false} PercentByteIndexed(bytes: seq<nat>, k: nat, rest: string)
    requires forall i :: 0 <= i < |bytes| ==> bytes[i] < 256
    requires k < |bytes|
    ensures PercentByteAt(PercentBytes(bytes) + rest, 3 * k) == Some(bytes[k])
    decreases k
  {
    var s := PercentBytes(bytes) + rest;
    if k == 0 {
      var b := bytes[0];
      HexRoundTrip(b / 16);
      HexRoundTrip(b % 16);
      assert s[..3] == PercentByte(b);
    } else {
      var tail := PercentBytes(bytes[1..]) + rest;
      assert s == PercentByte(bytes[0]) + tail;
      PercentByteIndexed(bytes[1..], k - 1, rest);
      assert s[3 * k..] == tail[3 * (k - 1)..];
      PercentByteAtShift(s, tail, 3 * k, 3 * (k - 1));
    }
  }

  /** Reading a byte depends only on the input from that position on. */
  lemma PercentByteAtShift(s: string, t: string, i: nat, j: nat)
    requires i <= |s| && j <= |t| && s[i..] == t[j..]
    ensures PercentByteAt(s, i) == PercentByteAt(t, j)
  {
    if i + 3 <= |s| {
      assert s[i] == s[i..][0] && s[i + 1] == s[i..][1] && s[i + 2] == s[i..][2];
      assert t[j] == t[j..][0] && t[j + 1] == t[j..][1] && t[j + 2] == t[j..][2];
    }
  }

  /** Decoding undoes encoding: the callback's message arrives intact at the login page. */
  lemma {:induction false} DecodeEncode(s: string)
    ensures Decode(Encode(s)) == Some(s)
    decreases |s|
  {
    if |s| > 0 {
      var head := EncodeChar(s[0]);
      var tail := Encode(s[1..]);
      assert Encode(s) == head + tail;
      DecodeEncodedChar(s[0], tail);
      assert (head + tail)[|head|..] == tail;
      DecodeEncode(s[1..]);
      assert [s[0]] + s[1..] == s;
    }
  }
}

=== FILE: wrappers.dfy ===
/** Optional values, standing for the `null`/`undefined` of the JavaScript source. */
module Wrappers {

  datatype Option<+T> = None | Some(value: T) {

    /** The wrapped value, or `default` when absent (JavaScript's `x ?? default`). */
    function GetOr(default: T): T {
      match this
      case Some(v) => v
      case None => default
    }
  }
}
